=== FILE: README.md ===
# IVS 2.0 face-to-face enrolment demo: a verified model

The demo is a clickable prototype with two simulated devices.

On the agent's **pad**, the agent:

- browses recommended customers (paged home list);
- opens a QR modal with a 60-second countdown;
- picks an activity;
- fills in a four-question questionnaire;
- reads a report of submitted questionnaires, with search and sort.

On the customer's **phone**, the customer scans the code, passes or fails an eligibility check, and confirms or declines authorization.

The two devices share one `QRInteractionStatus`. When it becomes `authorized`, the pad moves on by itself after a delay.

This project models that logic in Dafny, one module per source file:

| module | file | form |
|---|---|---|
| `Types` | `types.ts` | datatypes |
| `Constants` | `constants.ts` | fixture sequences |
| `QuestionnaireForm` | `components/QuestionnaireForm.tsx` | class `Form` plus pure answer functions |
| `ActivityData` | `components/ActivityData.tsx` | pure filter-then-sort plus class `DataView` |
| `ActivitySelection` | `components/ActivitySelection.tsx` | class `Selection` sorting an `array` in place, pure removal |
| `FaceToFaceHome` | `components/FaceToFaceHome.tsx` | class `Home` |
| `PhoneSimulator` | `components/PhoneSimulator.tsx` | class `Phone` |
| `QRModal` | `components/QRModal.tsx` | class `Modal` plus a pure countdown |
| `App` | `App.tsx` | class `Session` owning the phone and the modal, plus the mask functions |

Two more modules support these:

- `StableSort` is a generic stable insertion sort, `SortBy`. It comes with:
  - the specification every stable sort meets, `IsStableSortOf`;
  - a proof that only one list meets it, `StableSortIsUnique`;
  - an in-place array version, `SortInPlace`.

  The ECMAScript `Array.prototype.sort` is stable, so `SortBy` is exactly what the built-in sort returns with a numeric comparator.
- `Walkthroughs` drives the classes end to end.

Conventions of the model:

- **Timers are explicit steps.** `Session.ScanResolve`, `Session.Settle`, `Session.Tick` and `Home.LoadComplete` stand for them. `ScanResolve` and `Settle` are allowed only while one of their timeouts is pending, and `LoadComplete` only while a load is running. `Tick` may be taken at any time: it does nothing when no modal is mounted or the countdown is not running. Any interleaving of steps is allowed.
- **Random values and clock readings are parameters:**
  - the eligibility outcome;
  - the QR id;
  - `Date.now()`;
  - today's date.
- **Callbacks are return values.** A child's call into its parent is returned as a value (`PhoneCallback`, `SelectionCallback`), and the parent applies it.
- **Blocked clicks change nothing.** This covers a disabled button, a button that is not rendered, and a click swallowed by an overlay, in the component classes (`Form`, `Phone`, `Selection`, `Home`, `DataView`). Calls that no rendered button can make (`Form.Finalize` without the success modal, `DataView.OpenDetail` on an unlisted record, and the two under "## Left out") are excluded by `requires` instead. The handlers of `App.Session` are not blocked by the QR modal's full-screen overlay: `Session.Initiate`, `Session.Navigate` and the other pad handlers may be called while the modal is open, so the session admits more traces than the screen does.
- **Dates are integers.** `submitTime` is the date written as the integer YYYYMMDD. For real dates, integer order is chronological order, which is the only thing the report compares.

The model keeps what the code does, even where an idealised flow would differ:

- Declining authorization sets `rejected`, not `idle`.
- `expired` is never assigned. `Session.Valid` proves it never occurs, and the countdown simply stops at 0 while the code stays scannable (`Walkthroughs.CountdownRunsOut`).
- Regenerating the code never touches the status.
- The form always asks the four fixture questions, whatever the activity's `questionCount` says.
- The scan and settle timeouts are never cancelled (only the countdown interval is cleared, on every re-run of its effect when the time or the status changes, and on unmount):
  - A scan still being checked when the modal closes lands afterwards. The status becomes `scanned` with no modal open (`Walkthroughs.StaleScanAfterClose`).
  - A scheduled settle step closes the modal and opens the picker even if the agent closed the modal first.
- The activity list sorts the array it is given, in place.

## Model

| member | source | states |
|---|---|---|
| StableSort.SortBy | components/ActivityData.tsx:24-28 | the reference sort returns a list ordered by key that is a permutation of its input |
| StableSort.SortByIsStable | components/ActivityData.tsx:24-28 | elements with equal keys keep their input order, so the reference sort is a stable sort |
| StableSort.StableSortIsUnique | components/ActivityData.tsx:24-28 | any key-ordered list that keeps every equal-key group in input order equals the reference sort, so it is the result of the built-in stable sort |
| StableSort.SortedIsFixpoint | components/ActivitySelection.tsx:13 | sorting an already sorted list returns it unchanged, so the sort repeated on every re-render changes nothing |
| StableSort.SortInPlace | components/ActivitySelection.tsx:13 | sorting the array in place leaves exactly the reference sort of its old contents in it |
| Constants.QuestionFixture | constants.ts:19-24 | four questions with ids 1 to 4 in order; only question 2 is multiple choice; only question 4 is optional |
| Constants.ActivityFixture | constants.ts:12-17 | `act4` is the only unavailable activity, and creation times strictly decrease in declaration order |
| Constants.RecommendationPhonesHaveElevenDigits | constants.ts:4-10 | every recommended phone number has 11 characters |
| QuestionnaireForm.RemoveAll | components/QuestionnaireForm.tsx:26 | the filtered list no longer holds the option, holds every other option it held before, and is no longer |
| QuestionnaireForm.Toggle | components/QuestionnaireForm.tsx:24-29 | a multiple-choice click flips whether the clicked option is selected; the other options keep their membership and their order; an added option goes at the end |
| QuestionnaireForm.ToggleKeepsNoDuplicates | components/QuestionnaireForm.tsx:24-29 | a multiple-choice answer never holds an option twice |
| QuestionnaireForm.ToggleTwiceRestoresAbsent | components/QuestionnaireForm.tsx:24-29 | clicking an unselected option twice restores the original list exactly |
| QuestionnaireForm.ToggleTwiceRestoresMembers | components/QuestionnaireForm.tsx:24-29 | clicking any option twice restores the set of selected options |
| QuestionnaireForm.ToggleTwiceMovesSelectedOption | components/QuestionnaireForm.tsx:24-29 | clicking a selected option twice gives the list without it followed by it: the option moves to the end, so the order is not always restored |
| QuestionnaireForm.SelectOption | components/QuestionnaireForm.tsx:20-31 | single choice replaces the answer; multiple choice toggles the option against the current list, and a missing answer counts as the empty list; every other option already chosen stays chosen and no other option appears; the new list is exactly the toggled list, so the order is kept and an added option goes last; every other question's answer is unchanged |
| QuestionnaireForm.IsAnswerValid | components/QuestionnaireForm.tsx:33-38 | an answer is valid exactly when the question is optional, or it is present and neither the empty text nor the empty list |
| QuestionnaireForm.MultipleValidIffSelected | components/QuestionnaireForm.tsx:33-38 | a required multiple-choice question is valid exactly when at least one option is selected |
| QuestionnaireForm.SingleSelectionIsValid | components/QuestionnaireForm.tsx:33-38 | choosing a non-empty single-choice option makes the question valid |
| QuestionnaireForm.SelectKeepsWellFormed | components/QuestionnaireForm.tsx:20-31 | after a click on one of the current question's options, every answer still belongs to a listed question and has that question's shape |
| QuestionnaireForm.SelectKeepsOthersValidity | components/QuestionnaireForm.tsx:20-31 | answering one question never changes whether another question is valid |
| QuestionnaireForm.Decimal | components/QuestionnaireForm.tsx:54 | the numeral of a non-negative integer is a non-empty string of decimal digits that denotes that integer (`DigitsValue`, most significant digit first), with no leading zero except for 0 itself, one digit long exactly below ten |
| QuestionnaireForm.DecimalInjective | components/QuestionnaireForm.tsx:54 | different numbers have different numerals |
| QuestionnaireForm.ResultId | components/QuestionnaireForm.tsx:54 | a record id starts with `res-` |
| QuestionnaireForm.ResultIdsDiffer | components/QuestionnaireForm.tsx:54 | records submitted at different milliseconds get different ids |
| QuestionnaireForm.BuildResult | components/QuestionnaireForm.tsx:52-61 | the record has the id `res-` followed by the timestamp, the activity's title, today's date, the current answers, and the fixed visitor name, phone and enterprise |
| QuestionnaireForm.MockQuestionIdsDistinct | constants.ts:19-24 | no two fixture questions share an id |
| QuestionnaireForm.InitialResultAnswersFit | constants.ts:26-36 | the stored record answers exactly questions 1 and 2, each with its own options |
| QuestionnaireForm.Form.constructor | components/QuestionnaireForm.tsx:13-15 | a form starts on question 0 with no answers and the success modal closed |
| QuestionnaireForm.Form.IsCurrentAnswerValid | components/QuestionnaireForm.tsx:33-38 | "next" is enabled on an optional question, and on a required one exactly when it has a non-empty answer |
| QuestionnaireForm.Form.HandleOptionClick | components/QuestionnaireForm.tsx:20-31 | the click updates the answers as `SelectOption` says, keeps the cursor, and keeps the form invariant; it does nothing under the success modal |
| QuestionnaireForm.Form.Next | components/QuestionnaireForm.tsx:40-46 | with a valid current answer, the cursor moves on, or the success modal opens on the last question; otherwise nothing changes; the cursor stays on a question, and every question before it is answered validly |
| QuestionnaireForm.Form.Prev | components/QuestionnaireForm.tsx:48-50 | the cursor moves back by one, except on the first question |
| QuestionnaireForm.Form.Finalize | components/QuestionnaireForm.tsx:52-63 | the record handed back is `BuildResult` of the current state, and every question is answered validly in it |
| PhoneSimulator.ScanBlockedWhileHiddenOrScanning | components/PhoneSimulator.tsx:65-67 | the scan button is usable exactly on the scanner screen while the pad shows the code and the status is not `scanning` |
| PhoneSimulator.ScanOutcomePage | components/PhoneSimulator.tsx:26-35 | an eligible scan lands on the auth screen and an ineligible one on the fail screen |
| PhoneSimulator.Phone.constructor | components/PhoneSimulator.tsx:14 | the phone starts on its scanner screen with no pending check |
| PhoneSimulator.Phone.HandleScanClick | components/PhoneSimulator.tsx:23-36 | an enabled click reports `onScan` and starts one check, without changing the screen; a disabled one does nothing |
| PhoneSimulator.Phone.ResolveScan | components/PhoneSimulator.tsx:26-35 | a finished check reports its outcome and moves to auth or fail, whatever screen is showing |
| PhoneSimulator.Phone.Confirm | components/PhoneSimulator.tsx:90-93 | on the auth screen, confirming reports `onAuthorize(true)` and shows success |
| PhoneSimulator.Phone.Cancel | components/PhoneSimulator.tsx:99-102 | on the auth screen, cancelling reports `onAuthorize(false)` and goes back to the scanner |
| PhoneSimulator.Phone.Back | components/PhoneSimulator.tsx:129 | on the fail screen, back returns to the scanner and reports nothing |
| PhoneSimulator.Phone.PadVisibilityChanged | components/PhoneSimulator.tsx:17-21 | when the pad stops showing the code the phone resets to its scanner; otherwise nothing changes |
| QRModal.Step | components/QRModal.tsx:14-24 | one second takes exactly one off the remaining time while it is positive and the status is idle or scanning, and nothing otherwise |
| QRModal.CountdownStopsAtZero | components/QRModal.tsx:14-24 | while idle or scanning, n seconds leave max(0, t - n) |
| QRModal.CountdownFrozen | components/QRModal.tsx:15 | in any other status the countdown does not move |
| QRModal.CountdownInRange | components/QRModal.tsx:14-24 | starting in [0, 60], the countdown stays between 0 and its start, whatever the status |
| QRModal.ShownOnlyWhileCounting | components/QRModal.tsx:104 | the remaining time is shown exactly when it is positive and the status is idle |
| QRModal.Modal.constructor | components/QRModal.tsx:11-12 | a mounted modal starts at 60 seconds with the given code |
| QRModal.Modal.Tick | components/QRModal.tsx:14-24 | one interval tick applies `Step` and keeps the time in [0, 60] |
| QRModal.Modal.Refresh | components/QRModal.tsx:26-29 | regenerating sets a new code and a full 60 seconds |
| ActivityData.IncludesIffOccurs | components/ActivityData.tsx:19-23 | `Includes` holds exactly when the term occurs at some index of the string |
| ActivityData.EmptyTermIncluded | components/ActivityData.tsx:19-23 | the empty term occurs in every string |
| ActivityData.Search | components/ActivityData.tsx:18-23 | a record survives the filter exactly when it is stored and its name, phone or enterprise contains the term |
| ActivityData.SearchIsSubMultiset | components/ActivityData.tsx:18-23 | the filter never adds records |
| ActivityData.SearchAppend | components/ActivityData.tsx:18-23 | filtering two lists joined is joining their filtered lists, so survivors keep their order |
| ActivityData.EmptyTermKeepsAll | components/ActivityData.tsx:19-23 | the empty search term keeps every record, in order |
| ActivityData.Flip | components/ActivityData.tsx:52 | the sort button always changes the order |
| ActivityData.FlipTwice | components/ActivityData.tsx:52 | two clicks restore the order |
| ActivityData.FilteredResults | components/ActivityData.tsx:17-29 | the list shown is a permutation of the filtered records and is no longer than the store |
| ActivityData.FilteredMembership | components/ActivityData.tsx:17-29 | a record is shown exactly when it is stored and matches the term |
| ActivityData.FilteredIsSubMultiset | components/ActivityData.tsx:17-29 | every record is shown at most as often as it is stored |
| ActivityData.DescendingByDate | components/ActivityData.tsx:24-28 | newest first: dates never increase along the list |
| ActivityData.AscendingByDate | components/ActivityData.tsx:24-28 | oldest first: dates never decrease along the list |
| ActivityData.FilteredIsStable | components/ActivityData.tsx:24-28 | records of one date keep their stored relative order |
| ActivityData.FilteredIsTheStableSort | components/ActivityData.tsx:24-28 | any stable date sort of the filtered records is exactly the list shown |
| ActivityData.PrependedNewestComesFirst | components/ActivityData.tsx:17-29 | a record put in front of the store with the latest date heads the unfiltered newest-first list |
| ActivityData.DataView.constructor | components/ActivityData.tsx:13-16 | the report starts with an empty term, newest first, and no detail open |
| ActivityData.DataView.Shown | components/ActivityData.tsx:17-29 | the list on screen holds exactly the stored records matching the term, none more often than stored |
| ActivityData.DataView.ToggleSortOrder | components/ActivityData.tsx:52 | the order flips and nothing else changes; with a detail open the backdrop swallows the click |
| ActivityData.DataView.SetSearchTerm | components/ActivityData.tsx:46 | the term is replaced and nothing else changes; with a detail open the backdrop swallows the input |
| ActivityData.DataView.OpenDetail | components/ActivityData.tsx:82 | opening a listed record's detail selects it, a stored record; with a detail already open the backdrop swallows the click |
| ActivityData.DataView.CloseDetail | components/ActivityData.tsx:96-102 | closing clears the selection and nothing else changes |
| ActivitySelection.SortedIffNewestFirst | components/ActivitySelection.tsx:13 | ordering by the comparator's key is ordering by creation time, newest first |
| ActivitySelection.RemoveId | components/ActivitySelection.tsx:18 | the survivors are exactly the entries with a different id |
| ActivitySelection.RemoveIdAppend | components/ActivitySelection.tsx:18 | removal distributes over joined lists, so survivors keep their relative order |
| ActivitySelection.RemoveIdOfAbsent | components/ActivitySelection.tsx:18 | removing an id nobody has changes nothing |
| ActivitySelection.RemoveIdKeepsSorted | components/ActivitySelection.tsx:18 | a newest-first list stays newest first after a removal |
| ActivitySelection.Dispatch | components/ActivitySelection.tsx:15-23 | an unavailable activity invokes no callback; an available one invokes the callback its button names, with that activity |
| ActivitySelection.FixtureIsAlreadySorted | components/ActivitySelection.tsx:13 | sorting the fixture activities leaves them in declaration order |
| ActivitySelection.FixtureWithoutUnavailable | components/ActivitySelection.tsx:16-19 | acting on `act4` leaves the first three activities in order |
| ActivitySelection.Selection.constructor | components/ActivitySelection.tsx:13 | mounting sorts the given array in place and shows it newest first |
| ActivitySelection.Selection.HandleAction | components/ActivitySelection.tsx:15-23 | an unavailable activity is dropped from the list with no callback; an available one is dispatched with the list unchanged; the list stays newest first |
| FaceToFaceHome.InitialList | components/FaceToFaceHome.tsx:14 | the first screen is the first min(5, n) recommendations |
| FaceToFaceHome.ListingLength | components/FaceToFaceHome.tsx:14-22 | after k completed loads the list has min(5, n) + k * n entries |
| FaceToFaceHome.ListingGrows | components/FaceToFaceHome.tsx:20 | loads only append: earlier entries never change |
| FaceToFaceHome.Home.constructor | components/FaceToFaceHome.tsx:14-15 | the home list starts with the first screen, not loading |
| FaceToFaceHome.Home.LoadButtonEnabled | components/FaceToFaceHome.tsx:66-104 | the load button is usable exactly when there are recommendations to show and no load is running |
| FaceToFaceHome.Home.LoadMore | components/FaceToFaceHome.tsx:17-18 | a click with the button enabled starts a load; the list is unchanged |
| FaceToFaceHome.Home.LoadComplete | components/FaceToFaceHome.tsx:19-22 | a finished load appends the whole recommendation list and stops loading |
| App.MaskName | App.tsx:24 | a non-empty name masks to its first character followed by `*`; an empty one to `undefined*` |
| App.MaskNameIff | App.tsx:24 | two names mask alike exactly when both are empty or they share their first character |
| App.MaskPhone | App.tsx:25 | the mask is min(3, n) + 4 + min(4, n) characters long; a phone shorter than four characters masks to itself, four stars and itself again |
| App.MaskPhoneShape | App.tsx:25 | a phone of at least four characters masks to 11 characters: its first three, four stars and its last four |
| App.MaskPhoneIff | App.tsx:25 | two such phones mask alike exactly when their first three and last four characters agree |
| App.FirstRecommendationMasked | App.tsx:24-25 | the first recommended customer shows as `张*` and `138****5678` |
| App.StatusAfter | App.tsx:124-126 | no phone callback sets `idle` or `expired` |
| App.StatusAfterIff | App.tsx:124-126 | `scanning` comes only from a scan, `scanned` only from an eligible check, `authorized` only from a confirmation, and `rejected` from a failed check or a declined authorization |
| App.NavigationTargets | App.tsx:60-100 | the page handlers lead to the report, home, fill or the picker as written, and none to the preview |
| App.Session.constructor | App.tsx:15-21 | the session starts on home with the modal closed, the stored record, and the status `idle` |
| App.Session.Initiate | App.tsx:56-59 | opening sets the modal open and the status `idle`, mounting a fresh 60-second modal if it was closed |
| App.Session.CloseModal | App.tsx:107-110 | closing unmounts the modal and sets the status `idle`, and the phone resets to its scanner |
| App.Session.Navigate | App.tsx:60-100 | a page handler changes the page and nothing else |
| App.Session.OnSelectPreview | App.tsx:67-70 | the chosen activity is stored and the preview opens |
| App.Session.OnSelectFill | App.tsx:71-74 | the chosen activity is stored and the form opens |
| App.Session.FinishQuestionnaire | App.tsx:38-41 | the record becomes element 0 with the old list as the tail, and the report opens |
| App.Session.PhoneScanClick | App.tsx:124 | an enabled scan sets `scanning` and starts a check; `expired` never occurs and `scanning` always has a check pending |
| App.Session.ScanResolve | App.tsx:125 | a finished check sets `scanned` or `rejected`, even with the modal closed |
| App.Session.PhoneConfirm | App.tsx:126 | a confirmation sets `authorized` and schedules one settle step when the status was not already `authorized` |
| App.Session.PhoneCancel | App.tsx:126 | declining sets `rejected` and the phone returns to its scanner |
| App.Session.PhoneBack | components/PhoneSimulator.tsx:129 | back on the phone's fail screen leaves the shared status alone |
| App.Session.Settle | App.tsx:28-36 | the delayed step closes the modal, opens the picker and sets `idle` |
| App.Session.Tick | components/QRModal.tsx:14-24 | a second of the mounted modal's countdown runs under the current status |
| App.Session.RefreshQR | components/QRModal.tsx:26-29 | regenerating restarts the countdown with a new code and leaves the status, including `rejected`, unchanged |
| Walkthroughs.AuthorizeFlow | App.tsx:28-36 | initiate, scan, pass, confirm, settle ends on the picker with the status `idle`, the modal closed and the phone on its scanner |
| Walkthroughs.CancelThenRefresh | App.tsx:126 | declining then regenerating leaves `rejected` with a fresh 60 seconds, and the phone may scan again |
| Walkthroughs.StaleScanAfterClose | components/PhoneSimulator.tsx:26-35 | a check still pending when the modal closes sets `scanned` with no modal open, and confirming then still takes the pad to the picker |
| Walkthroughs.CountdownRunsOut | components/QRModal.tsx:14-24 | after 60 idle seconds the countdown is 0 and hidden, the status is still `idle`, and scanning is still enabled |
| Walkthroughs.AnswerRequired | components/QuestionnaireForm.tsx:40-46 | answering questions 1 to 3 and skipping the optional fourth opens the success modal |
| Walkthroughs.FillAndSubmit | App.tsx:38-41 | the submitted record is prepended and heads the newest-first report |
| Walkthroughs.PickActivity | components/ActivitySelection.tsx:13-23 | the fixture stays in order, acting on `act4` drops it, and previewing `act1` opens its preview |
| Walkthroughs.HomePaging | components/FaceToFaceHome.tsx:14-22 | one completed load after the first screen shows the five recommendations twice |

## Left out

- Rendering is not modelled: JSX, CSS, animations and icons. This includes the progress percentage, the answer echo in the report's detail modal, and `components/QuestionnairePreview.tsx`, which only renders the question outline.
- `alert` and the external QR image URL are foreign side effects.
- Timers run as explicit steps, and no real time passes. An interleaving the 1.0 s, 1.5 s and 1 s delays would exclude in practice is still allowed.
- `Math.random` is replaced by parameters: the 80% eligibility draw becomes a boolean, and the QR id an integer.
- `Date.now()` is a natural-number parameter. `Decimal` writes it as JavaScript writes integers below 10^21.
- Today's date is a parameter, and `submitTime` is a YYYYMMDD integer rather than the `YYYY-MM-DD` string. The report's comparison of parsed dates has the same order.
- React details are left out: stale closures, update batching and effect scheduling. Each handler is one atomic update. The multiple-choice click reads the answers as they are when the click is handled.
- QuestionnaireForm.CurrentChoices reads a text answer to a multiple-choice question as no selection. JavaScript would use the string itself. The form invariant (`WellFormedAnswers`) shows such an answer never arises.
- App.Session: its page handlers (`OnSelectPreview`, `OnSelectFill`, `FinishQuestionnaire`, `Navigate`) may be called on any page, while the screen offers each only on its own page, so the session admits more traces than the pad does.
- App.Session: its pad handlers are not blocked while the QR modal's full-screen overlay covers the pad, so the session admits clicks (such as `Session.Initiate` with the modal open) that the screen swallows.
- App.Session does not hold the page components. The home list, the activity picker, the form and the report are separate classes, connected to the session in `Walkthroughs`. A component's state resetting when its page is left and re-entered is not tracked by the session.
- Strings are sequences of characters. `MaskName` takes the first character, where JavaScript takes the first UTF-16 code unit; the two agree on every fixture name.
- QuestionnaireForm.Form.HandleOptionClick requires the option to be one of the current question's. Only those are rendered as buttons.
- ActivitySelection.Selection.HandleAction requires the activity to be listed. Only listed activities have buttons.
- QuestionnaireForm.Form.Finalize requires the success modal open. Its button is rendered only inside that modal, so a call without it is excluded rather than modelled as a no-op.
- ActivityData.DataView.OpenDetail requires the record to be listed. Only listed records have a details button, so a call on another record is excluded rather than modelled as a no-op.

=== FILE: activity_data.dfy ===
/**
 * The result report (components/ActivityData.tsx): the stored records are
 * filtered by a search term that must occur in the name, the phone or the
 * enterprise, then sorted by submission date, newest or oldest first.
 */
module ActivityData {
  import opened Types
  import opened StableSort

  // ---------------------------------------------------------------------------
  // Substring search

  predicate IsPrefix(p: string, s: string) {
    |p| <= |s| && s[..|p|] == p
  }

  /** `String.prototype.includes`: `term` occurs somewhere in `s`. */
  predicate Includes(s: string, term: string)
    decreases |s|
  {
    IsPrefix(term, s) || (|s| > 0 && Includes(s[1..], term))
  }

  /** `term` occurs in `s` starting at index `i`. */
  ghost predicate OccursAt(s: string, term: string, i: int) {
    0 <= i && i + |term| <= |s| && s[i..i + |term|] == term
  }

  lemma {:induction false} IncludesHasOccurrence(s: string, term: string)
    requires Includes(s, term)
    ensures exists i :: OccursAt(s, term, i)
    decreases |s|
  {
    if IsPrefix(term, s) {
      assert OccursAt(s, term, 0);
    } else {
      IncludesHasOccurrence(s[1..], term);
      var j :| OccursAt(s[1..], term, j);
      assert s[1..][j..j + |term|] == s[j + 1..j + 1 + |term|];
      assert OccursAt(s, term, j + 1);
    }
  }

  lemma {:induction false} OccurrenceIsIncluded(s: string, term: string, i: int)
    requires OccursAt(s, term, i)
    ensures Includes(s, term)
    decreases i
  {
    if i > 0 {
      assert s[1..][i - 1..i - 1 + |term|] == s[i..i + |term|];
      OccurrenceIsIncluded(s[1..], term, i - 1);
    } else {
      assert IsPrefix(term, s);
    }
  }

  /** `Includes` agrees with the plain definition of a substring. */
  lemma IncludesIffOccurs(s: string, term: string)
    ensures Includes(s, term) <==> exists i :: OccursAt(s, term, i)
  {
    if Includes(s, term) {
      IncludesHasOccurrence(s, term);
    }
    if exists i :: OccursAt(s, term, i) {
      var i :| OccursAt(s, term, i);
      OccurrenceIsIncluded(s, term, i);
    }
  }

  /** The empty term occurs in every string. */
  lemma EmptyTermIncluded(s: string)
    ensures Includes(s, "")
  {
  }

  /** The filter's test on one record. */
  predicate Matches(r: QuestionnaireResult, term: string) {
    Includes(r.customerName, term) || Includes(r.phone, term) || Includes(r.enterprise, term)
  }

  /** `results.filter(...)`: the matching records in their stored order. */
  function Search(rs: seq<QuestionnaireResult>, term: string): (out: seq<QuestionnaireResult>)
    ensures forall r :: r in out <==> r in rs && Matches(r, term)
    ensures |out| <= |rs|
  {
    if rs == [] then []
    else (if Matches(rs[0], term) then [rs[0]] else []) + Search(rs[1..], term)
  }

  /** The filter keeps each record at most as often as it is stored. */
  lemma {:induction false} SearchIsSubMultiset(rs: seq<QuestionnaireResult>, term: string)
    ensures multiset(Search(rs, term)) <= multiset(rs)
  {
    if rs != [] {
      SearchIsSubMultiset(rs[1..], term);
      assert rs == [rs[0]] + rs[1..];
    }
  }

  /** Filtering a concatenation filters each part. */
  lemma {:induction false} SearchAppend(a: seq<QuestionnaireResult>, b: seq<QuestionnaireResult>, term: string)
    ensures Search(a + b, term) == Search(a, term) + Search(b, term)
  {
    if a == [] {
      assert a + b == b;
    } else {
      assert (a + b)[0] == a[0] && (a + b)[1..] == a[1..] + b;
      SearchAppend(a[1..], b, term);
    }
  }

  /** The empty search term keeps every record, in order. */
  lemma {:induction false} EmptyTermKeepsAll(rs: seq<QuestionnaireResult>)
    ensures Search(rs, "") == rs
  {
    if rs != [] {
      EmptyTermIncluded(rs[0].customerName);
      EmptyTermKeepsAll(rs[1..]);
      assert rs == [rs[0]] + rs[1..];
    }
  }

  // ---------------------------------------------------------------------------
  // Ordering

  datatype SortOrder = Asc | Desc

  /** The sort button. */
  function Flip(o: SortOrder): (r: SortOrder)
    ensures r != o
  {
    if o == Desc then Asc else Desc
  }

  /** Two clicks on the sort button restore the order. */
  lemma FlipTwice(o: SortOrder)
    ensures Flip(Flip(o)) == o
  {
  }

  /** The comparator `timeB - timeA` (newest first) or `timeA - timeB` (oldest first), as a key. */
  function SubmitKey(order: SortOrder): QuestionnaireResult -> int {
    if order == Desc then (r: QuestionnaireResult) => -r.submitTime
    else (r: QuestionnaireResult) => r.submitTime
  }

  /** `filteredResults`: filter, then the stable built-in sort. */
  function FilteredResults(rs: seq<QuestionnaireResult>, term: string, order: SortOrder): (out: seq<QuestionnaireResult>)
    ensures multiset(out) == multiset(Search(rs, term))
    ensures |out| <= |rs|
  {
    SortBy(Search(rs, term), SubmitKey(order))
  }

  /** A record is listed exactly when it is stored and matches the term. */
  lemma FilteredMembership(rs: seq<QuestionnaireResult>, term: string, order: SortOrder, r: QuestionnaireResult)
    ensures r in FilteredResults(rs, term, order) <==> r in rs && Matches(r, term)
  {
    var out := FilteredResults(rs, term, order);
    assert r in out <==> r in multiset(out);
    assert r in Search(rs, term) <==> r in multiset(Search(rs, term));
  }

  /** Every listed record is stored at least as often as it is listed. */
  lemma FilteredIsSubMultiset(rs: seq<QuestionnaireResult>, term: string, order: SortOrder)
    ensures multiset(FilteredResults(rs, term, order)) <= multiset(rs)
  {
    SearchIsSubMultiset(rs, term);
  }

  /** Newest first: dates never increase along the list. */
  lemma DescendingByDate(rs: seq<QuestionnaireResult>, term: string)
    ensures var out := FilteredResults(rs, term, Desc);
      forall i, j :: 0 <= i < j < |out| ==> out[i].submitTime >= out[j].submitTime
  {
  }

  /** Oldest first: dates never decrease along the list. */
  lemma AscendingByDate(rs: seq<QuestionnaireResult>, term: string)
    ensures var out := FilteredResults(rs, term, Asc);
      forall i, j :: 0 <= i < j < |out| ==> out[i].submitTime <= out[j].submitTime
  {
  }

  /** Records of one date keep their stored relative order. */
  lemma FilteredIsStable(rs: seq<QuestionnaireResult>, term: string, order: SortOrder)
    ensures IsStableSortOf(FilteredResults(rs, term, order), Search(rs, term), SubmitKey(order))
  {
    SortByIsStable(Search(rs, term), SubmitKey(order));
  }

  /** Any stable sort of the matching records by date is this list. */
  lemma FilteredIsTheStableSort(out: seq<QuestionnaireResult>, rs: seq<QuestionnaireResult>, term: string, order: SortOrder)
    requires IsStableSortOf(out, Search(rs, term), SubmitKey(order))
    ensures out == FilteredResults(rs, term, order)
  {
    StableSortIsUnique(out, Search(rs, term), SubmitKey(order));
  }

  /**
   * A record prepended to the store with a date no older than any other's
   * heads the unfiltered newest-first list.
   */
  lemma PrependedNewestComesFirst(x: QuestionnaireResult, rs: seq<QuestionnaireResult>)
    requires forall r :: r in rs ==> r.submitTime <= x.submitTime
    ensures FilteredResults([x] + rs, "", Desc) != []
    ensures FilteredResults([x] + rs, "", Desc)[0] == x
  {
    var s := [x] + rs;
    var key := SubmitKey(Desc);
    EmptyTermKeepsAll(s);
    var out := FilteredResults(s, "", Desc);
    assert out == SortBy(s, key);
    assert x in multiset(out);
    var k := key(out[0]);
    var m :| 0 <= m < |out| && out[m] == x;
    assert k <= key(x);
    assert out[0] in multiset(s);
    assert key(x) <= k;
    SortByKeepsKeyGroups(s, key, k);
    NonEmptyHasOwnKeyGroup(out, key);
    NonEmptyHasOwnKeyGroup(s, key);
  }

  // ---------------------------------------------------------------------------
  // The report component

  class DataView {
    const results: seq<QuestionnaireResult>
    var searchTerm: string
    var sortOrder: SortOrder
    /** The record whose detail modal is open. */
    var selected: Option<QuestionnaireResult>

    constructor (results: seq<QuestionnaireResult>)
      ensures this.results == results
      ensures searchTerm == "" && sortOrder == Desc && selected == None
    {
      this.results := results;
      searchTerm := "";
      sortOrder := Desc;
      selected := None;
    }

    /** The list on screen. */
    function Shown(): (out: seq<QuestionnaireResult>)
      reads this
      ensures forall r :: r in out <==> r in results && Matches(r, searchTerm)
      ensures multiset(out) <= multiset(results)
    {
      FilteredIsSubMultiset(results, searchTerm, sortOrder);
      forall r ensures r in FilteredResults(results, searchTerm, sortOrder) <==> r in results && Matches(r, searchTerm) {
        FilteredMembership(results, searchTerm, sortOrder, r);
      }
      FilteredResults(results, searchTerm, sortOrder)
    }

    /** The sort button; the open detail modal's backdrop swallows the click. */
    method ToggleSortOrder()
      modifies this
      ensures sortOrder == if old(selected) == None then Flip(old(sortOrder)) else old(sortOrder)
      ensures searchTerm == old(searchTerm) && selected == old(selected)
    {
      if selected == None {
        sortOrder := if sortOrder == Desc then Asc else Desc;
      }
    }

    /** Typing in the search box; the open detail modal's backdrop swallows the input. */
    method SetSearchTerm(term: string)
      modifies this
      ensures searchTerm == if old(selected) == None then term else old(searchTerm)
      ensures sortOrder == old(sortOrder) && selected == old(selected)
    {
      if selected == None {
        searchTerm := term;
      }
    }

    /** "View details" on a listed record; the open detail modal's backdrop swallows the click. */
    method OpenDetail(r: QuestionnaireResult)
      requires r in Shown()
      modifies this
      ensures r in results
      ensures selected == if old(selected) == None then Some(r) else old(selected)
      ensures searchTerm == old(searchTerm) && sortOrder == old(sortOrder)
    {
      if selected == None {
        selected := Some(r);
      }
    }

    /** The close button or a click on the backdrop. */
    method CloseDetail()
      modifies this
      ensures selected == None
      ensures searchTerm == old(searchTerm) && sortOrder == old(sortOrder)
    {
      selected := None;
    }
  }
}

=== FILE: activity_selection.dfy ===
/**
 * The activity picker (components/ActivitySelection.tsx): the activities
 * passed in are sorted in place, newest created first, and each card offers
 * "preview" and "fill"; acting on an unavailable activity drops it instead.
 */
module ActivitySelection {
  import opened Types
  import opened StableSort
  import opened Constants

  /** The comparator `b.createTime - a.createTime` as a key: larger creation times sort first. */
  function CreateKey(a: Activity): int {
    -a.createTime
  }

  predicate NewestCreatedFirst(l: seq<Activity>) {
    forall i, j :: 0 <= i < j < |l| ==> l[i].createTime >= l[j].createTime
  }

  /** Sorting by `CreateKey` is ordering by creation time, newest first. */
  lemma SortedIffNewestFirst(l: seq<Activity>)
    ensures SortedBy(l, CreateKey) <==> NewestCreatedFirst(l)
  {
  }

  /** `prev.filter(a => a.id !== id)`. */
  function RemoveId(l: seq<Activity>, id: string): (r: seq<Activity>)
    ensures forall a :: a in r <==> a in l && a.id != id
    ensures |r| <= |l|
  {
    if l == [] then []
    else (if l[0].id == id then [] else [l[0]]) + RemoveId(l[1..], id)
  }

  /** Removal acts on each part of a list separately, so the survivors keep their order. */
  lemma {:induction false} RemoveIdAppend(a: seq<Activity>, b: seq<Activity>, id: string)
    ensures RemoveId(a + b, id) == RemoveId(a, id) + RemoveId(b, id)
  {
    if a == [] {
      assert a + b == b;
    } else {
      assert (a + b)[0] == a[0] && (a + b)[1..] == a[1..] + b;
      RemoveIdAppend(a[1..], b, id);
    }
  }

  /** Removing an id nobody has changes nothing. */
  lemma {:induction false} RemoveIdOfAbsent(l: seq<Activity>, id: string)
    requires forall i :: 0 <= i < |l| ==> l[i].id != id
    ensures RemoveId(l, id) == l
  {
    if l != [] {
      RemoveIdOfAbsent(l[1..], id);
      assert l == [l[0]] + l[1..];
    }
  }

  /** The survivors keep their relative order, so a newest-first list stays newest first. */
  lemma {:induction false} RemoveIdKeepsSorted(l: seq<Activity>, id: string)
    requires SortedBy(l, CreateKey)
    ensures SortedBy(RemoveId(l, id), CreateKey)
  {
    if l != [] {
      RemoveIdKeepsSorted(l[1..], id);
      var t := RemoveId(l[1..], id);
      forall y | y in t ensures CreateKey(l[0]) <= CreateKey(y) {
        var m :| 0 <= m < |l[1..]| && l[1..][m] == y;
        assert l[m + 1] == y;
      }
    }
  }

  datatype ActionKind = PreviewAction | FillAction

  /** The two callbacks into the pad. */
  datatype SelectionCallback = SelectPreview(act: Activity) | SelectFill(act: Activity)

  /** The callback a click invokes: none for an unavailable activity, otherwise the one the button names. */
  function Dispatch(act: Activity, action: ActionKind): (cb: Option<SelectionCallback>)
    ensures cb == None <==> !act.isAvailable
    ensures cb.Some? ==> cb.value.act == act
    ensures cb.Some? ==> (cb.value.SelectPreview? <==> action == PreviewAction)
  {
    if !act.isAvailable then None
    else if action == PreviewAction then Some(SelectPreview(act))
    else Some(SelectFill(act))
  }

  /** Sorting the fixture changes nothing: it is already newest first. */
  lemma FixtureIsAlreadySorted()
    ensures SortBy(MockActivities, CreateKey) == MockActivities
  {
    ActivityFixture();
    SortedIsFixpoint(MockActivities, CreateKey);
  }

  /** Acting on `act4` leaves the three available activities in order. */
  lemma FixtureWithoutUnavailable()
    ensures RemoveId(MockActivities, "act4") == MockActivities[..3]
  {
  }

  class Selection {
    var activeList: seq<Activity>

    /** The list on screen stays newest first. */
    ghost predicate Valid()
      reads this
    {
      SortedBy(activeList, CreateKey)
    }

    /** Mounting: sorts the caller's array in place and shows it. */
    constructor (activities: array<Activity>)
      modifies activities
      ensures Valid()
      ensures activities[..] == SortBy(old(activities[..]), CreateKey)
      ensures activeList == activities[..]
    {
      SortInPlace(activities, CreateKey);
      activeList := activities[..];
    }

    /** A click on "preview" or "fill" of a listed activity. */
    method HandleAction(act: Activity, action: ActionKind) returns (cb: Option<SelectionCallback>)
      requires Valid() && act in activeList
      modifies this
      ensures Valid()
      ensures cb == Dispatch(act, action)
      ensures activeList == if act.isAvailable then old(activeList) else RemoveId(old(activeList), act.id)
    {
      if !act.isAvailable {
        RemoveIdKeepsSorted(activeList, act.id);
        activeList := RemoveId(activeList, act.id);
        cb := None;
        return;
      }
      cb := Dispatch(act, action);
    }
  }
}

=== FILE: app.dfy ===
/**
 * The demo's root (App.tsx): the pad's page and modal flag, the QR
 * interaction status shared with the phone, the stored results, the mask
 * helpers, and the handlers that children call back into. The phone and the
 * QR modal are owned here, so that their callbacks and effects can be
 * applied as one step.
 */
module App {
  import opened Types
  import opened Constants
  import opened PhoneSimulator
  import opened QRModal

  // ---------------------------------------------------------------------------
  // Masks

  /** `name[0] + '*'`; the first character of an empty name reads as `undefined`. */
  function MaskName(name: string): (m: string)
    ensures name != "" ==> |m| == 2 && m[0] == name[0] && m[1] == '*'
    ensures name == "" ==> m == "undefined*"
  {
    if name == "" then "undefined*" else [name[0], '*']
  }

  /** Two names mask alike exactly when both are empty or they share their first character. */
  lemma MaskNameIff(a: string, b: string)
    ensures MaskName(a) == MaskName(b) <==> (a == "" && b == "") || (a != "" && b != "" && a[0] == b[0])
  {
  }

  /** `phone.slice(0, 3) + '****' + phone.slice(-4)`. */
  function MaskPhone(p: string): (m: string)
    ensures |m| == Min(3, |p|) + 4 + Min(4, |p|)
    ensures |p| < 4 ==> m == p + "****" + p
  {
    p[..Min(3, |p|)] + "****" + p[Max(0, |p| - 4)..]
  }

  /** A phone of at least four characters masks to eleven: its first three, four stars, its last four. */
  lemma MaskPhoneShape(p: string)
    requires |p| >= 4
    ensures var m := MaskPhone(p);
      |m| == 11 && m[..3] == p[..3] && m[3..7] == "****" && m[7..] == p[|p| - 4..]
  {
  }

  /** Two such phones mask alike exactly when they share their first three and last four characters. */
  lemma MaskPhoneIff(p: string, q: string)
    requires |p| >= 4 && |q| >= 4
    ensures MaskPhone(p) == MaskPhone(q) <==> p[..3] == q[..3] && p[|p| - 4..] == q[|q| - 4..]
  {
    MaskPhoneShape(p);
    MaskPhoneShape(q);
    if p[..3] == q[..3] && p[|p| - 4..] == q[|q| - 4..] {
      assert MaskPhone(p) == p[..3] + "****" + p[|p| - 4..];
      assert MaskPhone(q) == q[..3] + "****" + q[|q| - 4..];
    }
  }

  /** The first recommended customer as the home list shows them. */
  lemma FirstRecommendationMasked()
    ensures MaskName(MockRecommendations[0].name) == "张*"
    ensures MaskPhone(MockRecommendations[0].phone) == "138****5678"
  {
  }

  // ---------------------------------------------------------------------------
  // The shared status

  /** The status a phone callback sets: `onScan`, `onScanned` and `onAuthorize`. */
  function StatusAfter(cb: PhoneCallback): (s: QRInteractionStatus)
    ensures s != Idle && s != Expired
  {
    match cb
    case OnScan => Scanning
    case OnScanned(success) => if success then Scanned else Rejected
    case OnAuthorize(confirmed) => if confirmed then Authorized else Rejected
  }

  /** Which callback leads to which status; declining authorization rejects rather than going back to idle. */
  lemma StatusAfterIff(cb: PhoneCallback)
    ensures StatusAfter(cb) == Scanning <==> cb == OnScan
    ensures StatusAfter(cb) == Scanned <==> cb == OnScanned(true)
    ensures StatusAfter(cb) == Authorized <==> cb == OnAuthorize(true)
    ensures StatusAfter(cb) == Rejected <==> cb == OnScanned(false) || cb == OnAuthorize(false)
  {
  }

  // ---------------------------------------------------------------------------
  // Navigation

  /** The pad handlers that only change the page. */
  datatype NavEvent =
    | ViewData       // home: "view data"
    | SelectionBack  // activity picker: back
    | PreviewStart   // preview: start filling
    | PreviewBack    // preview: back
    | FormClose      // form: close
    | DataBack       // report: back

  function Target(e: NavEvent): PageType {
    match e
    case ViewData => DataReport
    case SelectionBack => Home
    case PreviewStart => Fill
    case PreviewBack => PageType.ActivitySelection
    case FormClose => Home
    case DataBack => Home
  }

  /** Where each page-changing handler leads; none of them reaches the preview page. */
  lemma NavigationTargets(e: NavEvent)
    ensures Target(e) == Home <==> e in {SelectionBack, FormClose, DataBack}
    ensures Target(e) == DataReport <==> e == ViewData
    ensures Target(e) == Fill <==> e == PreviewStart
    ensures Target(e) == PageType.ActivitySelection <==> e == PreviewBack
    ensures Target(e) != Preview
  {
  }

  // ---------------------------------------------------------------------------
  // The session

  /** The pad's own state. */
  datatype PadState = PadState(
    currentPage: PageType,
    isQRModalOpen: bool,
    selectedActivity: Option<Activity>,
    activityResults: seq<QuestionnaireResult>,
    qrInteraction: QRInteractionStatus,
    pendingSettles: nat)

  class Session {
    var currentPage: PageType
    var isQRModalOpen: bool
    var selectedActivity: Option<Activity>
    var activityResults: seq<QuestionnaireResult>
    var qrInteraction: QRInteractionStatus
    /** Delayed "authorized" transitions scheduled and not yet run; nothing cancels them. */
    var pendingSettles: nat
    const phone: Phone
    /** The mounted QR modal, if any. */
    var modal: Option<Modal>

    function Pad(): PadState
      reads this
    {
      PadState(currentPage, isQRModalOpen, selectedActivity, activityResults, qrInteraction, pendingSettles)
    }

    ghost function ModalFrame(): set<object>
      reads this
    {
      if modal.Some? then {modal.value} else {}
    }

    /**
     * The modal is mounted exactly while it is open; `expired` never occurs;
     * `authorized` always has its settle step pending and the phone on its
     * success screen; `scanning` has a check pending, the code on screen and
     * the phone on its scanner; `scanned` has the phone on its auth screen.
     */
    ghost predicate Valid()
      reads this, phone, ModalFrame()
    {
      && (modal.Some? <==> isQRModalOpen)
      && (modal.Some? ==> modal.value.Valid())
      && qrInteraction != Expired
      && (qrInteraction == Authorized ==> pendingSettles > 0 && phone.page == Success)
      && (qrInteraction == Scanning ==> phone.pendingScans > 0 && phone.page == Scanner && isQRModalOpen)
      && (qrInteraction == Scanned ==> phone.page == Auth)
    }

    constructor ()
      ensures Valid()
      ensures Pad() == PadState(Home, false, None, InitialDataResults, Idle, 0)
      ensures modal == None && fresh(phone)
      ensures phone.page == Scanner && phone.pendingScans == 0
    {
      currentPage := Home;
      isQRModalOpen := false;
      selectedActivity := None;
      activityResults := InitialDataResults;
      qrInteraction := Idle;
      pendingSettles := 0;
      phone := new Phone();
      modal := None;
    }

    /** Home's "initiate": opens the modal, mounting a fresh one if it was closed, and resets the status. */
    method Initiate(newQrId: int)
      requires Valid()
      modifies this
      ensures Valid()
      ensures Pad() == old(Pad()).(isQRModalOpen := true, qrInteraction := Idle)
      ensures old(isQRModalOpen) ==> modal == old(modal)
      ensures !old(isQRModalOpen) ==>
                modal.Some? && fresh(modal.value) && modal.value.timeLeft == Lifetime && modal.value.qrId == newQrId
    {
      if !isQRModalOpen {
        var m := new Modal(newQrId);
        modal := Some(m);
      }
      isQRModalOpen := true;
      qrInteraction := Idle;
    }

    /** The modal's close button: unmounts it, resets the status, and the phone resets to its scanner. */
    method CloseModal()
      requires Valid()
      modifies this, phone
      ensures Valid()
      ensures Pad() == old(Pad()).(isQRModalOpen := false, qrInteraction := Idle)
      ensures modal == None
      ensures phone.page == if old(isQRModalOpen) then Scanner else old(phone.page)
      ensures phone.pendingScans == old(phone.pendingScans)
    {
      var wasOpen := isQRModalOpen;
      isQRModalOpen := false;
      qrInteraction := Idle;
      modal := None;
      if wasOpen {
        phone.PadVisibilityChanged(false);
      }
    }

    /** A handler that only changes the page. */
    method Navigate(e: NavEvent)
      requires Valid()
      modifies this
      ensures Valid()
      ensures Pad() == old(Pad()).(currentPage := Target(e))
      ensures modal == old(modal)
    {
      currentPage := Target(e);
    }

    /** The picker's `onSelectPreview`. */
    method OnSelectPreview(act: Activity)
      requires Valid()
      modifies this
      ensures Valid()
      ensures Pad() == old(Pad()).(selectedActivity := Some(act), currentPage := Preview)
      ensures modal == old(modal)
    {
      selectedActivity := Some(act);
      currentPage := Preview;
    }

    /** The picker's `onSelectFill`. */
    method OnSelectFill(act: Activity)
      requires Valid()
      modifies this
      ensures Valid()
      ensures Pad() == old(Pad()).(selectedActivity := Some(act), currentPage := Fill)
      ensures modal == old(modal)
    {
      selectedActivity := Some(act);
      currentPage := Fill;
    }

    /** The form's `onComplete`: the new record goes in front and the report opens. */
    method FinishQuestionnaire(result: QuestionnaireResult)
      requires Valid()
      modifies this
      ensures Valid()
      ensures Pad() == old(Pad()).(activityResults := [result] + old(activityResults), currentPage := DataReport)
      ensures activityResults[0] == result && activityResults[1..] == old(activityResults)
      ensures modal == old(modal)
    {
      activityResults := [result] + activityResults;
      currentPage := DataReport;
    }

    /** The phone's scan button, with `onScan` applied. */
    method PhoneScanClick()
      requires Valid()
      modifies this, phone
      ensures Valid()
      ensures old(ScanButtonEnabled(phone.page, isQRModalOpen, qrInteraction)) ==>
                Pad() == old(Pad()).(qrInteraction := Scanning) && phone.pendingScans == old(phone.pendingScans) + 1
      ensures !old(ScanButtonEnabled(phone.page, isQRModalOpen, qrInteraction)) ==>
                Pad() == old(Pad()) && phone.pendingScans == old(phone.pendingScans)
      ensures phone.page == old(phone.page) && modal == old(modal)
    {
      var cb := phone.HandleScanClick(isQRModalOpen, qrInteraction);
      if cb.Some? {
        qrInteraction := StatusAfter(cb.value);
      }
    }

    /** One eligibility check completes, with `onScanned` applied, whether or not the modal is still open. */
    method ScanResolve(eligible: bool)
      requires Valid() && phone.pendingScans > 0
      modifies this, phone
      ensures Valid()
      ensures Pad() == old(Pad()).(qrInteraction := if eligible then Scanned else Rejected)
      ensures phone.page == ScanOutcomePage(eligible) && phone.pendingScans == old(phone.pendingScans) - 1
      ensures modal == old(modal)
    {
      var cb := phone.ResolveScan(eligible);
      qrInteraction := StatusAfter(cb);
    }

    /** The phone's "confirm", with `onAuthorize(true)` applied; becoming authorized schedules a settle step. */
    method PhoneConfirm()
      requires Valid()
      modifies this, phone
      ensures Valid()
      ensures old(phone.page) == Auth ==>
                Pad() == old(Pad()).(qrInteraction := Authorized,
                                     pendingSettles := old(pendingSettles) + if old(qrInteraction) == Authorized then 0 else 1)
      ensures old(phone.page) != Auth ==> Pad() == old(Pad())
      ensures phone.page == if old(phone.page) == Auth then Success else old(phone.page)
      ensures phone.pendingScans == old(phone.pendingScans) && modal == old(modal)
    {
      var cb := phone.Confirm();
      if cb.Some? {
        var before := qrInteraction;
        qrInteraction := StatusAfter(cb.value);
        if before != Authorized {
          pendingSettles := pendingSettles + 1;
        }
      }
    }

    /** The phone's "cancel", with `onAuthorize(false)` applied: the status becomes rejected. */
    method PhoneCancel()
      requires Valid()
      modifies this, phone
      ensures Valid()
      ensures Pad() == if old(phone.page) == Auth then old(Pad()).(qrInteraction := Rejected) else old(Pad())
      ensures phone.page == if old(phone.page) == Auth then Scanner else old(phone.page)
      ensures phone.pendingScans == old(phone.pendingScans) && modal == old(modal)
    {
      var cb := phone.Cancel();
      if cb.Some? {
        qrInteraction := StatusAfter(cb.value);
      }
    }

    /** The phone's "back" on its failure screen; the status is left as it is. */
    method PhoneBack()
      requires Valid()
      modifies phone
      ensures Valid()
      ensures phone.page == if old(phone.page) == Fail then Scanner else old(phone.page)
      ensures phone.pendingScans == old(phone.pendingScans)
    {
      phone.Back();
    }

    /** The delayed step scheduled on becoming authorized: closes the modal, opens the picker, resets the status. */
    method Settle()
      requires Valid() && pendingSettles > 0
      modifies this, phone
      ensures Valid()
      ensures Pad() == old(Pad()).(isQRModalOpen := false, currentPage := PageType.ActivitySelection,
                                   qrInteraction := Idle, pendingSettles := old(pendingSettles) - 1)
      ensures modal == None
      ensures phone.page == if old(isQRModalOpen) then Scanner else old(phone.page)
      ensures phone.pendingScans == old(phone.pendingScans)
    {
      var wasOpen := isQRModalOpen;
      pendingSettles := pendingSettles - 1;
      isQRModalOpen := false;
      modal := None;
      currentPage := PageType.ActivitySelection;
      qrInteraction := Idle;
      if wasOpen {
        phone.PadVisibilityChanged(false);
      }
    }

    /** One second of the mounted modal's countdown, under the current status. */
    method Tick()
      requires Valid()
      modifies ModalFrame()
      ensures Valid()
      ensures modal.Some? ==>
                modal.value.timeLeft == Step(old(modal.value.timeLeft), qrInteraction) &&
                modal.value.qrId == old(modal.value.qrId)
    {
      if modal.Some? {
        modal.value.Tick(qrInteraction);
      }
    }

    /** The modal's "regenerate" or "retry" button: a new code and a full countdown; the status is left as it is. */
    method RefreshQR(newQrId: int)
      requires Valid()
      modifies ModalFrame()
      ensures Valid()
      ensures modal.Some? ==> modal.value.timeLeft == Lifetime && modal.value.qrId == newQrId
    {
      if modal.Some? {
        modal.value.Refresh(newQrId);
      }
    }
  }
}

=== FILE: constants.dfy ===
/** The fixture data the demo runs on (constants.ts). */
module Constants {
  import opened Types

  const MockRecommendations: seq<CustomerRecommendation> := [
    CustomerRecommendation("1", "张伟", "13812345678", "2023-10-12", "字节跳动", "职场精英保障计划"),
    CustomerRecommendation("2", "李芳", "13987654321", "2023-11-05", "腾讯科技", "高管健康关怀"),
    CustomerRecommendation("3", "王强", "13700001111", "2023-11-15", "阿里巴巴", "员工福利普惠"),
    CustomerRecommendation("4", "赵敏", "15011112222", "2023-12-01", "百度集团", "家庭资产配置"),
    CustomerRecommendation("5", "孙悟空", "13366667777", "2023-12-20", "花果山科技", "长寿健康保险")
  ]

  const MockActivities: seq<Activity> := [
    Activity("act1", "职域保障需求调研(2024夏季版)", "https://picsum.photos/seed/act1/400/200", 5, true, 1715000000),
    Activity("act2", "养老风险深度评估专项调查", "https://picsum.photos/seed/act2/400/200", 8, true, 1714000000),
    Activity("act3", "少儿教育储备金需求摸底", "https://picsum.photos/seed/act3/400/200", 4, true, 1713000000),
    Activity("act4", "已过期下架活动示例", "https://picsum.photos/seed/act4/400/200", 10, false, 1712000000)
  ]

  const MockQuestions: seq<Question> := [
    Question(1, Single, "您目前主要的理财偏好是什么？", ["银行储蓄", "股票基金", "商业保险", "不动产投资"], true),
    Question(2, Multiple, "您关注保险产品的哪些方面？（多选）", ["公司品牌", "保障范围", "理赔速度", "增值服务", "保费高低"], true),
    Question(3, Single, "您认为理想的年交保费占家庭收入的比例是多少？", ["5%以内", "5%-10%", "10%-20%", "20%以上"], true),
    Question(4, Single, "您近期是否有增加重疾保障的计划？", ["已有且足够", "已有但考虑加保", "暂无但想了解", "完全不考虑"], false)
  ]

  /** The one stored result the report starts with; its date 2024-01-15 is written 20240115. */
  const InitialDataResults: seq<QuestionnaireResult> := [
    QuestionnaireResult("res1", "周*", "135****4444", "顺丰速运", "职域保障需求调研", 20240115,
      map[1 := Text("商业保险"), 2 := Choices(["公司品牌", "理赔速度"])])
  ]

  /** Four questions with ids 1 to 4 in order; only question 2 is multiple choice; only question 4 is optional. */
  lemma QuestionFixture()
    ensures |MockQuestions| == 4
    ensures forall i :: 0 <= i < 4 ==> MockQuestions[i].id == i + 1
    ensures forall i :: 0 <= i < 4 ==> (MockQuestions[i].kind == Multiple <==> i == 1)
    ensures forall i :: 0 <= i < 4 ==> (MockQuestions[i].required <==> i < 3)
  {
  }

  /** `act4` is the only unavailable activity, and creation times strictly decrease in declaration order. */
  lemma ActivityFixture()
    ensures |MockActivities| == 4
    ensures forall i :: 0 <= i < 4 ==> (!MockActivities[i].isAvailable <==> MockActivities[i].id == "act4")
    ensures forall i, j :: 0 <= i < j < 4 ==> MockActivities[i].createTime > MockActivities[j].createTime
  {
  }

  /** Every recommended customer's phone number has eleven characters. */
  lemma RecommendationPhonesHaveElevenDigits()
    ensures forall r :: r in MockRecommendations ==> |r.phone| == 11
  {
  }
}

=== FILE: face_to_face_home.dfy ===
/**
 * The pad's home screen (components/FaceToFaceHome.tsx): a list of
 * recommended customers that starts with the first five and grows by the
 * whole recommendation list each time a delayed load completes.
 */
module FaceToFaceHome {
  import opened Types

  /** How many recommendations the first screen shows at most. */
  const PageSize := 5

  /** `recommendations.slice(0, 5)`. */
  function InitialList(recs: seq<CustomerRecommendation>): (l: seq<CustomerRecommendation>)
    ensures |l| == Min(PageSize, |recs|)
    ensures forall i :: 0 <= i < |l| ==> l[i] == recs[i]
  {
    recs[..Min(PageSize, |recs|)]
  }

  /** `k` copies of `s` one after another. */
  function Repeat(s: seq<CustomerRecommendation>, k: nat): seq<CustomerRecommendation> {
    if k == 0 then [] else Repeat(s, k - 1) + s
  }

  /** The list after `k` completed loads. */
  function Listing(recs: seq<CustomerRecommendation>, k: nat): seq<CustomerRecommendation> {
    InitialList(recs) + Repeat(recs, k)
  }

  /** After `k` completed loads the list holds `min(5, n) + k * n` entries. */
  lemma {:induction false} ListingLength(recs: seq<CustomerRecommendation>, k: nat)
    ensures |Listing(recs, k)| == Min(PageSize, |recs|) + k * |recs|
  {
    if k > 0 {
      ListingLength(recs, k - 1);
      assert |Repeat(recs, k)| == |Repeat(recs, k - 1)| + |recs|;
    }
  }

  /** Loads only append: the list after `j` loads is a prefix of the list after any later count. */
  lemma {:induction false} ListingGrows(recs: seq<CustomerRecommendation>, j: nat, k: nat)
    requires j <= k
    ensures |Listing(recs, j)| <= |Listing(recs, k)|
    ensures Listing(recs, k)[..|Listing(recs, j)|] == Listing(recs, j)
  {
    if j < k {
      ListingGrows(recs, j, k - 1);
      var p, q := Listing(recs, j), Listing(recs, k - 1);
      assert Listing(recs, k) == q + recs;
      assert (q + recs)[..|p|] == q[..|p|];
    }
  }

  class Home {
    const recommendations: seq<CustomerRecommendation>
    var list: seq<CustomerRecommendation>
    var loading: bool
    /** Loads completed since mounting. */
    ghost var loads: nat

    ghost predicate Valid()
      reads this
    {
      list == Listing(recommendations, loads)
    }

    constructor (recommendations: seq<CustomerRecommendation>)
      ensures Valid()
      ensures this.recommendations == recommendations
      ensures list == InitialList(recommendations) && !loading && loads == 0
    {
      this.recommendations := recommendations;
      list := InitialList(recommendations);
      loading := false;
      loads := 0;
    }

    /** The load button: only rendered with a non-empty list and disabled while a load runs. */
    predicate LoadButtonEnabled(): (enabled: bool)
      reads this
      ensures Valid() ==> (enabled <==> recommendations != [] && !loading)
    {
      ListingGrows(recommendations, 0, loads);
      ListingLength(recommendations, loads);
      list != [] && !loading
    }

    /** Click on "load more": starts a load. */
    method LoadMore()
      requires Valid()
      modifies this
      ensures Valid()
      ensures list == old(list) && loads == old(loads)
      ensures loading == (old(loading) || old(LoadButtonEnabled()))
    {
      if LoadButtonEnabled() {
        loading := true;
      }
    }

    /** The delayed load completes: the whole recommendation list is appended. */
    method LoadComplete()
      requires Valid() && loading
      modifies this
      ensures Valid()
      ensures list == old(list) + recommendations
      ensures !loading && loads == old(loads) + 1
    {
      list := list + recommendations;
      loading := false;
      loads := loads + 1;
    }
  }
}

=== FILE: phone_simulator.dfy ===
/**
 * The customer's phone (components/PhoneSimulator.tsx): a four-screen page
 * machine driven by clicks, by the pad's modal visibility and by the delayed
 * outcome of a scan. Calls back into the pad are returned as `PhoneCallback`
 * values, which the session applies to the shared status.
 */
module PhoneSimulator {
  import opened Types

  /** The three callbacks the phone invokes on the pad. */
  datatype PhoneCallback = OnScan | OnScanned(success: bool) | OnAuthorize(confirmed: bool)

  /** Guard of the scan button: it is on the scanner screen and enabled while the pad shows the code and no scan is being checked. */
  predicate ScanButtonEnabled(page: PhonePageType, isPadShowingQR: bool, status: QRInteractionStatus) {
    page == Scanner && isPadShowingQR && status != Scanning
  }

  /** The scan button is never usable while the pad hides the code or a scan is in progress. */
  lemma ScanBlockedWhileHiddenOrScanning(page: PhonePageType, isPadShowingQR: bool, status: QRInteractionStatus)
    ensures !isPadShowingQR ==> !ScanButtonEnabled(page, isPadShowingQR, status)
    ensures status == Scanning ==> !ScanButtonEnabled(page, isPadShowingQR, status)
    ensures ScanButtonEnabled(page, isPadShowingQR, status) <==>
              page == Scanner && isPadShowingQR && status in {Idle, Scanned, Authorized, Rejected, Expired}
  {
  }

  /** The screen the delayed eligibility check lands on. */
  function ScanOutcomePage(eligible: bool): (p: PhonePageType)
    ensures p == Auth <==> eligible
    ensures p == Fail <==> !eligible
  {
    if eligible then Auth else Fail
  }

  class Phone {
    var page: PhonePageType
    /** Eligibility checks started by the scan button and not yet resolved. */
    var pendingScans: nat

    constructor ()
      ensures page == Scanner && pendingScans == 0
    {
      page := Scanner;
      pendingScans := 0;
    }

    /** Click on the scan button: reports the scan and starts an eligibility check; a no-op while the button is disabled or hidden. */
    method HandleScanClick(isPadShowingQR: bool, status: QRInteractionStatus) returns (cb: Option<PhoneCallback>)
      modifies this
      ensures old(ScanButtonEnabled(page, isPadShowingQR, status)) ==>
                cb == Some(OnScan) && pendingScans == old(pendingScans) + 1 && page == old(page)
      ensures !old(ScanButtonEnabled(page, isPadShowingQR, status)) ==>
                cb == None && pendingScans == old(pendingScans) && page == old(page)
    {
      if ScanButtonEnabled(page, isPadShowingQR, status) {
        pendingScans := pendingScans + 1;
        cb := Some(OnScan);
      } else {
        cb := None;
      }
    }

    /** One eligibility check completes, whatever screen the phone shows by then. */
    method ResolveScan(eligible: bool) returns (cb: PhoneCallback)
      requires pendingScans > 0
      modifies this
      ensures cb == OnScanned(eligible)
      ensures page == ScanOutcomePage(eligible)
      ensures pendingScans == old(pendingScans) - 1
    {
      pendingScans := pendingScans - 1;
      page := ScanOutcomePage(eligible);
      cb := OnScanned(eligible);
    }

    /** "Confirm authorization" on the auth screen. */
    method Confirm() returns (cb: Option<PhoneCallback>)
      modifies this
      ensures old(page) == Auth ==> cb == Some(OnAuthorize(true)) && page == Success
      ensures old(page) != Auth ==> cb == None && page == old(page)
      ensures pendingScans == old(pendingScans)
    {
      if page == Auth {
        page := Success;
        cb := Some(OnAuthorize(true));
      } else {
        cb := None;
      }
    }

    /** "Cancel" on the auth screen: declines and goes back to the scanner. */
    method Cancel() returns (cb: Option<PhoneCallback>)
      modifies this
      ensures old(page) == Auth ==> cb == Some(OnAuthorize(false)) && page == Scanner
      ensures old(page) != Auth ==> cb == None && page == old(page)
      ensures pendingScans == old(pendingScans)
    {
      if page == Auth {
        page := Scanner;
        cb := Some(OnAuthorize(false));
      } else {
        cb := None;
      }
    }

    /** "Back" on the failure screen; it reports nothing to the pad. */
    method Back()
      modifies this
      ensures page == if old(page) == Fail then Scanner else old(page)
      ensures pendingScans == old(pendingScans)
    {
      if page == Fail {
        page := Scanner;
      }
    }

    /** The reset effect, run when the pad's modal visibility changes to `isPadShowingQR`. */
    method PadVisibilityChanged(isPadShowingQR: bool)
      modifies this
      ensures page == if isPadShowingQR then old(page) else Scanner
      ensures pendingScans == old(pendingScans)
    {
      if !isPadShowingQR {
        page := Scanner;
      }
    }
  }
}

=== FILE: qr_modal.dfy ===
/**
 * The pad's QR modal (components/QRModal.tsx): a 60-second countdown that
 * runs only while the shared status is idle or scanning, and a refresh that
 * draws a new code and restarts the countdown. Neither touches the status.
 */
module QRModal {
  import opened Types

  /** Seconds a freshly drawn code is shown as valid. */
  const Lifetime := 60

  /** Whether the one-second interval runs. */
  predicate Counting(t: int, status: QRInteractionStatus) {
    (status == Idle || status == Scanning) && t > 0
  }

  /** The remaining time after one second. */
  function Step(t: int, status: QRInteractionStatus): (r: int)
    ensures Counting(t, status) ==> r == t - 1
    ensures !Counting(t, status) ==> r == t
  {
    if Counting(t, status) then t - 1 else t
  }

  /** The remaining time after `n` seconds under a fixed status. */
  function Countdown(t: int, status: QRInteractionStatus, n: nat): int {
    if n == 0 then t else Countdown(Step(t, status), status, n - 1)
  }

  /** While idle or scanning the countdown loses one per second and stops at 0. */
  lemma {:induction false} CountdownStopsAtZero(t: nat, status: QRInteractionStatus, n: nat)
    requires status == Idle || status == Scanning
    ensures Countdown(t, status, n) == if n >= t then 0 else t - n
  {
    if n > 0 {
      CountdownStopsAtZero(Step(t, status), status, n - 1);
    }
  }

  /** In any other status the countdown is frozen. */
  lemma {:induction false} CountdownFrozen(t: int, status: QRInteractionStatus, n: nat)
    requires status != Idle && status != Scanning
    ensures Countdown(t, status, n) == t
  {
    if n > 0 {
      CountdownFrozen(t, status, n - 1);
    }
  }

  /** From any time in [0, 60] the countdown stays in [0, 60], whatever the status. */
  lemma {:induction false} CountdownInRange(t: int, status: QRInteractionStatus, n: nat)
    requires 0 <= t <= Lifetime
    ensures 0 <= Countdown(t, status, n) <= t
  {
    if n > 0 {
      CountdownInRange(Step(t, status), status, n - 1);
    }
  }

  /** Whether the modal shows the remaining seconds. */
  predicate ShowsRemaining(t: int, status: QRInteractionStatus) {
    t > 0 && status == Idle
  }

  /** The remaining time is shown exactly when the countdown runs, except while scanning, when it runs unseen. */
  lemma ShownOnlyWhileCounting(t: int, status: QRInteractionStatus)
    ensures ShowsRemaining(t, status) <==> Counting(t, status) && status != Scanning
  {
  }

  class Modal {
    var timeLeft: int
    /** The code's identity; drawn at random by the source, supplied by the caller here. */
    var qrId: int

    ghost predicate Valid()
      reads this
    {
      0 <= timeLeft <= Lifetime
    }

    /** Mounting the modal. */
    constructor (qrId: int)
      ensures Valid()
      ensures timeLeft == Lifetime && this.qrId == qrId
    {
      timeLeft := Lifetime;
      this.qrId := qrId;
    }

    /** One second of the interval timer. */
    method Tick(status: QRInteractionStatus)
      requires Valid()
      modifies this
      ensures Valid()
      ensures timeLeft == Step(old(timeLeft), status)
      ensures qrId == old(qrId)
    {
      if Counting(timeLeft, status) {
        timeLeft := timeLeft - 1;
      }
    }

    /** "Regenerate QR code", also wired to the retry button on the rejected overlay. */
    method Refresh(newQrId: int)
      modifies this
      ensures Valid()
      ensures timeLeft == Lifetime && qrId == newQrId
    {
      qrId := newQrId;
      timeLeft := Lifetime;
    }
  }
}

=== FILE: questionnaire_form.dfy ===
/**
 * The questionnaire engine (components/QuestionnaireForm.tsx): a cursor over
 * the fixed question list, the answers collected so far, the required-answer
 * check that enables "next", and the record built on submission.
 */
module QuestionnaireForm {
  import opened Types
  import opened Constants

  // ---------------------------------------------------------------------------
  // Multiple-choice answers

  /** No option occurs twice in `l`. */
  predicate NoDuplicates(l: seq<string>) {
    forall i, j :: 0 <= i < j < |l| ==> l[i] != l[j]
  }

  /** `l` without any occurrence of `o`, in the original order. */
  function RemoveAll(l: seq<string>, o: string): (r: seq<string>)
    ensures o !in r
    ensures forall x :: x != o ==> (x in r <==> x in l)
    ensures |r| <= |l|
  {
    if l == [] then []
    else (if l[0] == o then [] else [l[0]]) + RemoveAll(l[1..], o)
  }

  lemma {:induction false} RemoveAllOfAbsent(l: seq<string>, o: string)
    requires o !in l
    ensures RemoveAll(l, o) == l
  {
    if l != [] {
      RemoveAllOfAbsent(l[1..], o);
      assert l == [l[0]] + l[1..];
    }
  }

  lemma {:induction false} RemoveAllAppend(a: seq<string>, b: seq<string>, o: string)
    ensures RemoveAll(a + b, o) == RemoveAll(a, o) + RemoveAll(b, o)
  {
    if a == [] {
      assert a + b == b;
    } else {
      assert (a + b)[0] == a[0] && (a + b)[1..] == a[1..] + b;
      RemoveAllAppend(a[1..], b, o);
    }
  }

  /**
   * The multiple-choice click: drops `o` if it is selected, else appends it at
   * the end. Either way the other options keep their order.
   */
  function Toggle(l: seq<string>, o: string): (r: seq<string>)
    ensures o in r <==> o !in l
    ensures forall x :: x != o ==> (x in r <==> x in l)
    ensures RemoveAll(r, o) == RemoveAll(l, o)
    ensures o !in l ==> |r| == |l| + 1 && r[|l|] == o
  {
    if o in l then
      RemoveAllOfAbsent(RemoveAll(l, o), o);
      RemoveAll(l, o)
    else
      RemoveAllAppend(l, [o], o);
      assert RemoveAll([o], o) == [];
      l + [o]
  }

  lemma {:induction false} RemoveAllKeepsNoDuplicates(l: seq<string>, o: string)
    requires NoDuplicates(l)
    ensures NoDuplicates(RemoveAll(l, o))
  {
    if l != [] {
      assert NoDuplicates(l[1..]);
      RemoveAllKeepsNoDuplicates(l[1..], o);
      assert l[0] !in l[1..];
    }
  }

  /** A toggled answer list never holds an option twice. */
  lemma ToggleKeepsNoDuplicates(l: seq<string>, o: string)
    requires NoDuplicates(l)
    ensures NoDuplicates(Toggle(l, o))
  {
    if o in l {
      RemoveAllKeepsNoDuplicates(l, o);
    }
  }

  /** Clicking an unselected option twice gives back exactly the list it started from. */
  lemma ToggleTwiceRestoresAbsent(l: seq<string>, o: string)
    requires o !in l
    ensures Toggle(Toggle(l, o), o) == l
  {
    assert Toggle(l, o) == l + [o];
    RemoveAllAppend(l, [o], o);
    RemoveAllOfAbsent(l, o);
    assert RemoveAll([o], o) == [];
  }

  /** Clicking any option twice gives back the same set of selected options. */
  lemma ToggleTwiceRestoresMembers(l: seq<string>, o: string)
    ensures forall x :: x in Toggle(Toggle(l, o), o) <==> x in l
  {
  }

  /** Clicking a selected option twice moves it behind the others: the order is not restored. */
  lemma ToggleTwiceMovesSelectedOption(l: seq<string>, o: string)
    requires o in l
    ensures Toggle(Toggle(l, o), o) == RemoveAll(l, o) + [o]
  {
  }

  // ---------------------------------------------------------------------------
  // Answers

  /** The options selected for a multiple-choice question; a missing answer reads as none. */
  function CurrentChoices(answers: Answers, id: int): seq<string> {
    if id in answers && answers[id].Choices? then answers[id].choices else []
  }

  /** The answers after clicking `option` on question `q`. */
  function SelectOption(q: Question, answers: Answers, option: string): (r: Answers)
    ensures r.Keys == answers.Keys + {q.id}
    ensures forall id :: id in answers && id != q.id ==> r[id] == answers[id]
    ensures q.kind == Single ==> r[q.id] == Text(option)
    ensures q.kind == Multiple ==> r[q.id].Choices?
    ensures q.kind == Multiple ==>
      (option in r[q.id].choices <==> option !in CurrentChoices(answers, q.id))
    ensures q.kind == Multiple ==>
      forall x :: x != option ==> (x in r[q.id].choices <==> x in CurrentChoices(answers, q.id))
    ensures q.kind == Multiple ==> r[q.id] == Choices(Toggle(CurrentChoices(answers, q.id), option))
  {
    if q.kind == Single then answers[q.id := Text(option)]
    else answers[q.id := Choices(Toggle(CurrentChoices(answers, q.id), option))]
  }

  /** Whether `q` may be left: optional, or answered with a non-empty option or list. */
  predicate IsAnswerValid(q: Question, answers: Answers): (ok: bool)
    ensures ok <==> !q.required || (q.id in answers && answers[q.id] != Text("") && answers[q.id] != Choices([]))
  {
    !q.required ||
    (q.id in answers &&
     match answers[q.id]
     case Choices(l) => |l| > 0
     case Text(s) => s != "")
  }

  /** A required multiple-choice question is valid exactly when some option is selected. */
  lemma MultipleValidIffSelected(q: Question, answers: Answers)
    requires q.kind == Multiple && q.required
    requires q.id in answers ==> answers[q.id].Choices?
    ensures IsAnswerValid(q, answers) <==> |CurrentChoices(answers, q.id)| > 0
  {
  }

  /** Selecting a single-choice option, never the empty string in the fixtures, makes the question valid. */
  lemma SingleSelectionIsValid(q: Question, answers: Answers, option: string)
    requires q.kind == Single && option != ""
    ensures IsAnswerValid(q, SelectOption(q, answers, option))
  {
  }

  /** `a` has the shape `q` asks for: one of its options, or a list of distinct options. */
  predicate Fits(q: Question, a: Answer) {
    match a
    case Text(s) => q.kind == Single && s in q.options
    case Choices(l) => q.kind == Multiple && NoDuplicates(l) && forall o :: o in l ==> o in q.options
  }

  predicate DistinctIds(qs: seq<Question>) {
    forall i, j :: 0 <= i < j < |qs| ==> qs[i].id != qs[j].id
  }

  /** Every answer belongs to a question of `qs` and fits it. */
  predicate WellFormedAnswers(qs: seq<Question>, answers: Answers) {
    (forall id :: id in answers ==> exists i :: 0 <= i < |qs| && qs[i].id == id) &&
    (forall i :: 0 <= i < |qs| && qs[i].id in answers ==> Fits(qs[i], answers[qs[i].id]))
  }

  /** Clicking one of the current question's options keeps every answer well formed. */
  lemma SelectKeepsWellFormed(qs: seq<Question>, n: int, answers: Answers, option: string)
    requires DistinctIds(qs) && 0 <= n < |qs| && option in qs[n].options
    requires WellFormedAnswers(qs, answers)
    ensures WellFormedAnswers(qs, SelectOption(qs[n], answers, option))
  {
    var q := qs[n];
    var r := SelectOption(q, answers, option);
    forall id | id in r ensures exists i :: 0 <= i < |qs| && qs[i].id == id {
      if id == q.id {
        assert qs[n].id == id;
      }
    }
    forall i | 0 <= i < |qs| && qs[i].id in r ensures Fits(qs[i], r[qs[i].id]) {
      if i == n {
        if q.kind == Multiple {
          var cur := CurrentChoices(answers, q.id);
          assert q.id in answers ==> Fits(q, answers[q.id]);
          assert NoDuplicates(cur);
          ToggleKeepsNoDuplicates(cur, option);
        }
      } else {
        assert qs[i].id != q.id;
      }
    }
  }

  /** Answering one question leaves the validity of every other question as it was. */
  lemma SelectKeepsOthersValidity(q: Question, other: Question, answers: Answers, option: string)
    requires other.id != q.id
    ensures IsAnswerValid(other, SelectOption(q, answers, option)) == IsAnswerValid(other, answers)
  {
  }

  // ---------------------------------------------------------------------------
  // The submitted record

  /** The decimal digit `d`. */
  function DigitChar(d: int): char
    requires 0 <= d < 10
  {
    (48 + d) as char
  }

  /** The number a string of decimal digits denotes, most significant digit first. */
  function DigitsValue(s: string): int {
    if s == [] then 0 else 10 * DigitsValue(s[..|s| - 1]) + (s[|s| - 1] as int - 48)
  }

  /** The decimal numeral of `n`, as JavaScript writes an integral number: no leading zero, and it denotes `n`. */
  function Decimal(n: nat): (s: string)
    ensures |s| >= 1
    ensures |s| == 1 <==> n < 10
    ensures forall i :: 0 <= i < |s| ==> '0' <= s[i] <= '9'
    ensures s[0] == '0' <==> n == 0
    ensures DigitsValue(s) == n
  {
    if n < 10 then [DigitChar(n)] else Decimal(n / 10) + [DigitChar(n % 10)]
  }

  /** Different numbers have different numerals: each numeral denotes its number. */
  lemma DecimalInjective(a: nat, b: nat)
    requires Decimal(a) == Decimal(b)
    ensures a == b
  {
  }

  /** The id of a record submitted at millisecond `now`. */
  function ResultId(now: nat): (id: string)
    ensures |id| > 4 && id[..4] == "res-"
  {
    "res-" + Decimal(now)
  }

  /** Records submitted at different milliseconds get different ids. */
  lemma ResultIdsDiffer(a: nat, b: nat)
    requires a != b
    ensures ResultId(a) != ResultId(b)
  {
    assert ResultId(a)[4..] == Decimal(a) && ResultId(b)[4..] == Decimal(b);
  }

  const PlaceholderName := "访客*"
  const PlaceholderPhone := "138****0000"
  const PlaceholderEnterprise := "临时企业"

  /** The record `finalize` hands to its caller: fixed visitor identity, the activity's title, today's date and a copy of the answers. */
  function BuildResult(activity: Activity, answers: Answers, now: nat, today: int): (r: QuestionnaireResult)
    ensures |r.id| > 4 && r.id[..4] == "res-" && r.id[4..] == Decimal(now)
    ensures r.activityName == activity.title && r.answers == answers && r.submitTime == today
    ensures r.customerName == PlaceholderName && r.phone == PlaceholderPhone && r.enterprise == PlaceholderEnterprise
  {
    QuestionnaireResult(ResultId(now), PlaceholderName, PlaceholderPhone, PlaceholderEnterprise,
                        activity.title, today, answers)
  }

  lemma MockQuestionIdsDistinct()
    ensures DistinctIds(MockQuestions)
  {
  }

  /** The stored sample record answers questions 1 and 2 with their own options. */
  lemma InitialResultAnswersFit()
    ensures WellFormedAnswers(MockQuestions, InitialDataResults[0].answers)
    ensures InitialDataResults[0].answers.Keys == {1, 2}
  {
    var answers := InitialDataResults[0].answers;
    assert MockQuestions[0].id == 1 && MockQuestions[1].id == 2;
    assert answers[1] == Text("商业保险") && "商业保险" in MockQuestions[0].options;
    var l := ["公司品牌", "理赔速度"];
    assert answers[2] == Choices(l) && NoDuplicates(l);
    assert Fits(MockQuestions[1], answers[2]);
  }

  // ---------------------------------------------------------------------------
  // The form component

  /**
   * One mounted form. The questions are always the fixture list, whatever
   * the activity's `questionCount` says.
   */
  class Form {
    const activity: Activity
    var currentIdx: int
    var answers: Answers
    var isSuccessModalOpen: bool

    /**
     * The cursor is on a question, every answer fits its question, every
     * question before the cursor is validly answered, and the success modal
     * only opens on the last question once it too is valid.
     */
    ghost predicate Valid()
      reads this
    {
      && 0 <= currentIdx < |MockQuestions|
      && WellFormedAnswers(MockQuestions, answers)
      && (forall i :: 0 <= i < currentIdx ==> IsAnswerValid(MockQuestions[i], answers))
      && (isSuccessModalOpen ==>
            currentIdx == |MockQuestions| - 1 && IsAnswerValid(MockQuestions[currentIdx], answers))
    }

    constructor (activity: Activity)
      ensures Valid()
      ensures this.activity == activity
      ensures currentIdx == 0 && answers == map[] && !isSuccessModalOpen
    {
      this.activity := activity;
      currentIdx := 0;
      answers := map[];
      isSuccessModalOpen := false;
    }

    function CurrentQuestion(): Question
      reads this
      requires Valid()
    {
      MockQuestions[currentIdx]
    }

    /** Enables the "next" button. */
    predicate IsCurrentAnswerValid(): (ok: bool)
      reads this
      requires Valid()
      ensures !CurrentQuestion().required ==> ok
      ensures CurrentQuestion().required ==>
                (ok <==> CurrentQuestion().id in answers && answers[CurrentQuestion().id] !in {Text(""), Choices([])})
    {
      IsAnswerValid(CurrentQuestion(), answers)
    }

    /** Click on an option of the current question; the success modal's overlay swallows it. */
    method HandleOptionClick(option: string)
      requires Valid() && option in CurrentQuestion().options
      modifies this
      ensures Valid()
      ensures currentIdx == old(currentIdx) && isSuccessModalOpen == old(isSuccessModalOpen)
      ensures answers == if old(isSuccessModalOpen) then old(answers)
                         else SelectOption(old(CurrentQuestion()), old(answers), option)
    {
      if !isSuccessModalOpen {
        var q := MockQuestions[currentIdx];
        MockQuestionIdsDistinct();
        SelectKeepsWellFormed(MockQuestions, currentIdx, answers, option);
        forall i | 0 <= i < currentIdx
          ensures IsAnswerValid(MockQuestions[i], SelectOption(q, answers, option)) == IsAnswerValid(MockQuestions[i], answers)
        {
          SelectKeepsOthersValidity(q, MockQuestions[i], answers, option);
        }
        answers := SelectOption(q, answers, option);
      }
    }

    /**
     * Click on "next": disabled while the current answer is invalid; otherwise
     * moves on, or on the last question opens the success modal.
     */
    method Next()
      requires Valid()
      modifies this
      ensures Valid()
      ensures answers == old(answers)
      ensures old(!isSuccessModalOpen && IsCurrentAnswerValid()) && old(currentIdx) < |MockQuestions| - 1 ==>
                currentIdx == old(currentIdx) + 1 && !isSuccessModalOpen
      ensures old(!isSuccessModalOpen && IsCurrentAnswerValid()) && old(currentIdx) == |MockQuestions| - 1 ==>
                currentIdx == old(currentIdx) && isSuccessModalOpen
      ensures old(isSuccessModalOpen || !IsCurrentAnswerValid()) ==>
                currentIdx == old(currentIdx) && isSuccessModalOpen == old(isSuccessModalOpen)
    {
      if !isSuccessModalOpen && IsCurrentAnswerValid() {
        if currentIdx < |MockQuestions| - 1 {
          currentIdx := currentIdx + 1;
        } else {
          isSuccessModalOpen := true;
        }
      }
    }

    /** Click on "previous": disabled on the first question. */
    method Prev()
      requires Valid()
      modifies this
      ensures Valid()
      ensures answers == old(answers) && isSuccessModalOpen == old(isSuccessModalOpen)
      ensures currentIdx == if !old(isSuccessModalOpen) && old(currentIdx) > 0 then old(currentIdx) - 1
                            else old(currentIdx)
    {
      if !isSuccessModalOpen && currentIdx > 0 {
        currentIdx := currentIdx - 1;
      }
    }

    /**
     * Click on the success modal's button: the record handed to `onComplete`.
     * Every question of the list is validly answered in it.
     */
    method Finalize(now: nat, today: int) returns (r: QuestionnaireResult)
      requires Valid() && isSuccessModalOpen
      ensures r == BuildResult(activity, answers, now, today)
      ensures forall q :: q in MockQuestions ==> IsAnswerValid(q, r.answers)
      ensures WellFormedAnswers(MockQuestions, r.answers)
    {
      r := BuildResult(activity, answers, now, today);
    }
  }
}

=== FILE: stable_sort.dfy ===
/**
 * Stable sorting by an integer key, as `Array.prototype.sort` does with a
 * numeric comparator `(a, b) => key(a) - key(b)` (the ECMAScript sort is
 * stable). `SortBy` is a reference insertion sort, `IsStableSortOf` says what
 * any stable sort must produce, and `StableSortIsUnique` shows the two agree,
 * so `SortBy` is exactly the result of the built-in sort.
 */
module StableSort {

  /** `s` is ordered by non-decreasing key. */
  predicate SortedBy<T>(s: seq<T>, key: T -> int) {
    forall i, j :: 0 <= i < j < |s| ==> key(s[i]) <= key(s[j])
  }

  /** The elements of `s` whose key is `k`, in their order in `s`. */
  function WithKey<T>(s: seq<T>, key: T -> int, k: int): seq<T> {
    if s == [] then []
    else (if key(s[0]) == k then [s[0]] else []) + WithKey(s[1..], key, k)
  }

  /** `r` orders `s` by key and keeps every group of equal keys in its order in `s`. */
  ghost predicate IsStableSortOf<T>(r: seq<T>, s: seq<T>, key: T -> int) {
    SortedBy(r, key) && forall k :: WithKey(r, key, k) == WithKey(s, key, k)
  }

  /** Puts `x` before the first element of `s` whose key is not smaller than its own. */
  function Insert<T>(x: T, s: seq<T>, key: T -> int): (r: seq<T>)
    requires SortedBy(s, key)
    ensures SortedBy(r, key)
    ensures multiset(r) == multiset(s) + multiset{x}
    ensures |r| == |s| + 1
    ensures r[0] == x || (s != [] && r[0] == s[0])
  {
    if s == [] || key(x) <= key(s[0]) then [x] + s
    else
      assert s == [s[0]] + s[1..];
      [s[0]] + Insert(x, s[1..], key)
  }

  /** Insertion sort: the head of `s` goes in front of its equal-key peers from the tail. */
  function SortBy<T>(s: seq<T>, key: T -> int): (r: seq<T>)
    ensures SortedBy(r, key)
    ensures multiset(r) == multiset(s)
    ensures |r| == |s|
  {
    if s == [] then []
    else
      assert s == [s[0]] + s[1..];
      Insert(s[0], SortBy(s[1..], key), key)
  }

  lemma {:induction false} WithKeyAppend<T>(a: seq<T>, b: seq<T>, key: T -> int, k: int)
    ensures WithKey(a + b, key, k) == WithKey(a, key, k) + WithKey(b, key, k)
  {
    if a == [] {
      assert a + b == b;
    } else {
      assert (a + b)[0] == a[0];
      assert (a + b)[1..] == a[1..] + b;
      WithKeyAppend(a[1..], b, key, k);
    }
  }

  lemma {:induction false} WithKeyMember<T>(s: seq<T>, key: T -> int, k: int, y: T)
    ensures y in WithKey(s, key, k) <==> y in s && key(y) == k
  {
    if s != [] {
      WithKeyMember(s[1..], key, k, y);
      assert s == [s[0]] + s[1..];
    }
  }

  lemma {:induction false} WithKeyAbsent<T>(s: seq<T>, key: T -> int, k: int)
    requires forall i :: 0 <= i < |s| ==> key(s[i]) != k
    ensures WithKey(s, key, k) == []
  {
    if s != [] {
      WithKeyAbsent(s[1..], key, k);
    }
  }

  /** Inserting `x` adds it in front of the elements of its own key and leaves every other key group alone. */
  lemma {:induction false} InsertWithKey<T>(x: T, s: seq<T>, key: T -> int, k: int)
    requires SortedBy(s, key)
    ensures WithKey(Insert(x, s, key), key, k) == (if key(x) == k then [x] else []) + WithKey(s, key, k)
  {
    if s == [] || key(x) <= key(s[0]) {
      assert ([x] + s)[1..] == s;
    } else {
      var r := Insert(x, s, key);
      assert r == [s[0]] + Insert(x, s[1..], key);
      assert r[1..] == Insert(x, s[1..], key);
      InsertWithKey(x, s[1..], key, k);
    }
  }

  lemma {:induction false} SortByKeepsKeyGroups<T>(s: seq<T>, key: T -> int, k: int)
    ensures WithKey(SortBy(s, key), key, k) == WithKey(s, key, k)
  {
    if s != [] {
      SortByKeepsKeyGroups(s[1..], key, k);
      InsertWithKey(s[0], SortBy(s[1..], key), key, k);
    }
  }

  /** The reference insertion sort is a stable sort. */
  lemma SortByIsStable<T>(s: seq<T>, key: T -> int)
    ensures IsStableSortOf(SortBy(s, key), s, key)
  {
    forall k ensures WithKey(SortBy(s, key), key, k) == WithKey(s, key, k) {
      SortByKeepsKeyGroups(s, key, k);
    }
  }

  /** A non-empty sequence's first element heads its own key group. */
  lemma NonEmptyHasOwnKeyGroup<T>(s: seq<T>, key: T -> int)
    ensures s != [] ==> WithKey(s, key, key(s[0])) != [] && WithKey(s, key, key(s[0]))[0] == s[0]
  {
  }

  /** Two sequences ordered by key with the same key groups are equal. */
  lemma {:induction false} SortedWithSameGroupsAreEqual<T>(p: seq<T>, q: seq<T>, key: T -> int)
    requires SortedBy(p, key) && SortedBy(q, key)
    requires forall k :: WithKey(p, key, k) == WithKey(q, key, k)
    ensures p == q
    decreases |p|
  {
    if p == [] || q == [] {
      NonEmptyHasOwnKeyGroup(p, key);
      NonEmptyHasOwnKeyGroup(q, key);
      if p != [] || q != [] {
        assert false;
      }
    } else {
      var kp, kq := key(p[0]), key(q[0]);
      assert WithKey(p, key, kp)[0] == p[0];
      WithKeyMember(q, key, kp, p[0]);
      var j :| 0 <= j < |q| && q[j] == p[0];
      assert kq <= kp;
      assert WithKey(q, key, kq)[0] == q[0];
      WithKeyMember(p, key, kq, q[0]);
      var i :| 0 <= i < |p| && p[i] == q[0];
      assert kp <= kq;
      assert p[0] == q[0];
      forall k ensures WithKey(p[1..], key, k) == WithKey(q[1..], key, k) {
        var n := if kp == k then 1 else 0;
        assert WithKey(p[1..], key, k) == WithKey(p, key, k)[n..];
        assert WithKey(q[1..], key, k) == WithKey(q, key, k)[n..];
      }
      SortedWithSameGroupsAreEqual(p[1..], q[1..], key);
      assert p == [p[0]] + p[1..] && q == [q[0]] + q[1..];
    }
  }

  /** A stable sort has exactly one possible result, the reference one. */
  lemma StableSortIsUnique<T>(r: seq<T>, s: seq<T>, key: T -> int)
    requires IsStableSortOf(r, s, key)
    ensures r == SortBy(s, key)
  {
    SortByIsStable(s, key);
    SortedWithSameGroupsAreEqual(r, SortBy(s, key), key);
  }

  /** Sorting a sequence that is already ordered changes nothing. */
  lemma SortedIsFixpoint<T>(s: seq<T>, key: T -> int)
    requires SortedBy(s, key)
    ensures SortBy(s, key) == s
  {
    StableSortIsUnique(s, s, key);
  }

  lemma InsertAtIsSorted<T>(p: seq<T>, x: T, j: int, key: T -> int)
    requires SortedBy(p, key)
    requires 0 <= j <= |p|
    requires forall m :: j <= m < |p| ==> key(x) < key(p[m])
    requires j > 0 ==> key(p[j - 1]) <= key(x)
    ensures SortedBy(p[..j] + [x] + p[j..], key)
  {
    var r := p[..j] + [x] + p[j..];
    forall a, b | 0 <= a < b < |r| ensures key(r[a]) <= key(r[b]) {
      if b < j {
        assert r[a] == p[a] && r[b] == p[b];
      } else if b == j {
        assert r[a] == p[a];
        assert key(p[a]) <= key(p[j - 1]);
      } else if a < j {
        assert r[a] == p[a] && r[b] == p[b - 1];
      } else if a == j {
        assert r[b] == p[b - 1];
      } else {
        assert r[a] == p[a - 1] && r[b] == p[b - 1];
      }
    }
  }

  lemma WithKeySingleton<T>(x: T, key: T -> int, k: int)
    ensures WithKey([x], key, k) == if key(x) == k then [x] else []
  {
    assert [x][1..] == [];
  }

  lemma InsertAtKeyGroup<T>(p: seq<T>, t: seq<T>, x: T, j: int, key: T -> int, k: int)
    requires WithKey(p, key, k) == WithKey(t, key, k)
    requires 0 <= j <= |p|
    requires forall m :: j <= m < |p| ==> key(x) < key(p[m])
    ensures WithKey(p[..j] + [x] + p[j..], key, k) == WithKey(t + [x], key, k)
  {
    var front, back := p[..j], p[j..];
    assert front + back == p;
    WithKeySingleton(x, key, k);
    WithKeyAppend(front, [x], key, k);
    WithKeyAppend(front + [x], back, key, k);
    WithKeyAppend(front, back, key, k);
    WithKeyAppend(t, [x], key, k);
    var wf, wb, mid := WithKey(front, key, k), WithKey(back, key, k), WithKey([x], key, k);
    if key(x) == k {
      WithKeyAbsent(back, key, k);
      assert wb == [];
      assert wf + mid + wb == (wf + wb) + mid;
    } else {
      assert mid == [];
      assert wf + mid + wb == (wf + wb) + mid;
    }
  }

  /**
   * The step of an in-place insertion sort: `x` placed at `j`, after the
   * elements whose key is at most its own and before those whose key is larger.
   */
  lemma InsertAtIsStable<T>(p: seq<T>, t: seq<T>, x: T, j: int, key: T -> int)
    requires IsStableSortOf(p, t, key)
    requires 0 <= j <= |p|
    requires forall m :: j <= m < |p| ==> key(x) < key(p[m])
    requires j > 0 ==> key(p[j - 1]) <= key(x)
    ensures IsStableSortOf(p[..j] + [x] + p[j..], t + [x], key)
  {
    InsertAtIsSorted(p, x, j, key);
    forall k ensures WithKey(p[..j] + [x] + p[j..], key, k) == WithKey(t + [x], key, k) {
      InsertAtKeyGroup(p, t, x, j, key, k);
    }
  }

  /**
   * Moves `a[i]` left past the elements of `a[..i]` whose key is larger than
   * its own, shifting them one place right; returns where it landed.
   */
  method ShiftIntoPlace<T>(a: array<T>, i: int, key: T -> int) returns (j: int)
    requires 0 <= i < a.Length
    modifies a
    ensures 0 <= j <= i
    ensures a[..i + 1] == old(a[..j]) + [old(a[i])] + old(a[j..i])
    ensures a[i + 1..] == old(a[i + 1..])
    ensures forall m :: j <= m < i ==> key(old(a[i])) < key(old(a[m]))
    ensures j > 0 ==> key(old(a[j - 1])) <= key(old(a[i]))
  {
    ghost var s := a[..];
    var x := a[i];
    j := i;
    while j > 0 && key(a[j - 1]) > key(x)
      invariant 0 <= j <= i
      invariant forall m :: 0 <= m < j ==> a[m] == s[m]
      invariant forall m :: j < m <= i ==> a[m] == s[m - 1]
      invariant forall m :: i < m < a.Length ==> a[m] == s[m]
      invariant forall m :: j <= m < i ==> key(x) < key(s[m])
    {
      a[j] := a[j - 1];
      j := j - 1;
    }
    a[j] := x;
    assert a[..i + 1] == s[..j] + [x] + s[j..i];
    assert a[i + 1..] == s[i + 1..];
  }

  /** Sorts `a` in place by key, stably, as `Array.prototype.sort` does. */
  method SortInPlace<T>(a: array<T>, key: T -> int)
    modifies a
    ensures a[..] == SortBy(old(a[..]), key)
  {
    ghost var s := a[..];
    var i := 0;
    while i < a.Length
      invariant 0 <= i <= a.Length
      invariant a[i..] == s[i..]
      invariant IsStableSortOf(a[..i], s[..i], key)
    {
      ghost var p := a[..i];
      ghost var x := a[i];
      ghost var before := a[..];
      var j := ShiftIntoPlace(a, i, key);
      assert before[..j] == p[..j] && before[j..i] == p[j..];
      assert a[..i + 1] == p[..j] + [x] + p[j..];
      assert x == s[i];
      assert s[..i + 1] == s[..i] + [x];
      InsertAtIsStable(p, s[..i], x, j, key);
      assert a[i + 1..] == s[i + 1..];
      i := i + 1;
    }
    assert a[..] == a[..a.Length] && s == s[..a.Length];
    StableSortIsUnique(a[..], s, key);
  }
}

=== FILE: types.dfy ===
/** The enumerations and records shared by every screen of the demo (types.ts). */
module Types {

  datatype Option<+T> = None | Some(value: T)

  /** `Math.min` and `Math.max` on integers, as the slicing code uses them. */
  function Min(a: int, b: int): int {
    if a <= b then a else b
  }

  function Max(a: int, b: int): int {
    if a <= b then b else a
  }

  /** The agent pad's five screens. */
  datatype PageType = Home | ActivitySelection | Preview | Fill | DataReport

  /** The customer phone's four screens. */
  datatype PhonePageType = Scanner | Auth | Success | Fail

  /** The QR interaction status shared by the pad and the phone. */
  datatype QRInteractionStatus = Idle | Scanning | Scanned | Authorized | Rejected | Expired

  datatype CustomerRecommendation = CustomerRecommendation(
    id: string, name: string, phone: string, wsmDate: string, enterprise: string, activityName: string)

  /** `createTime` is a number of seconds; `questionCount` is shown but never used by the form. */
  datatype Activity = Activity(
    id: string, title: string, image: string, questionCount: int, isAvailable: bool, createTime: int)

  datatype QuestionKind = Single | Multiple

  datatype Question = Question(id: int, kind: QuestionKind, title: string, options: seq<string>, required: bool)

  /** An answer is one option (single choice) or a list of options (multiple choice). */
  datatype Answer = Text(text: string) | Choices(choices: seq<string>)

  /** Answers keyed by the numeric question id. */
  type Answers = map<int, Answer>

  /**
   * A finished questionnaire. `submitTime` is the calendar date written as the
   * integer YYYYMMDD: for valid dates integer order is chronological order,
   * which is all the result list compares.
   */
  datatype QuestionnaireResult = QuestionnaireResult(
    id: string, customerName: string, phone: string, enterprise: string,
    activityName: string, submitTime: int, answers: Answers)
}

=== FILE: walkthroughs.dfy ===
/**
 * End-to-end runs of the demo, each driving the components the way a user
 * and the timers would, with what the source makes of them.
 */
module Walkthroughs {
  import opened Types
  import opened Constants
  import opened PhoneSimulator
  import opened QRModal
  import opened App
  import QuestionnaireForm
  import ActivityData
  import Sel = ActivitySelection
  import FaceToFaceHome

  /** Initiate, scan, pass the check, confirm, and let the settle step run: the pad lands on the picker. */
  method AuthorizeFlow(qrId: int) returns (s: Session)
    ensures s.currentPage == PageType.ActivitySelection && s.qrInteraction == Idle
    ensures !s.isQRModalOpen && s.modal == None && s.pendingSettles == 0
    ensures s.phone.page == Scanner && s.phone.pendingScans == 0
  {
    s := new Session();
    s.Initiate(qrId);
    s.PhoneScanClick();
    s.ScanResolve(true);
    s.PhoneConfirm();
    s.Settle();
  }

  /** Declining on the phone rejects; regenerating the code keeps the rejection and the phone may scan again. */
  method CancelThenRefresh(qrId: int, nextQrId: int) returns (s: Session)
    ensures s.qrInteraction == Rejected && s.isQRModalOpen && s.currentPage == Home
    ensures s.modal.Some? && s.modal.value.timeLeft == Lifetime && s.modal.value.qrId == nextQrId
    ensures s.phone.page == Scanner && s.pendingSettles == 0
    ensures ScanButtonEnabled(s.phone.page, s.isQRModalOpen, s.qrInteraction)
  {
    s := new Session();
    s.Initiate(qrId);
    s.PhoneScanClick();
    s.ScanResolve(true);
    s.PhoneCancel();
    s.RefreshQR(nextQrId);
  }

  /**
   * A scan still being checked when the modal is closed lands anyway: the
   * status says scanned with no modal open, and confirming then takes the pad
   * to the picker although no code is on screen.
   */
  method StaleScanAfterClose(qrId: int) returns (s: Session, afterResolve: QRInteractionStatus)
    ensures afterResolve == Scanned
    ensures s.currentPage == PageType.ActivitySelection && s.qrInteraction == Idle && !s.isQRModalOpen
    ensures s.phone.page == Success
  {
    s := new Session();
    s.Initiate(qrId);
    s.PhoneScanClick();
    s.CloseModal();
    s.ScanResolve(true);
    afterResolve := s.qrInteraction;
    assert !s.isQRModalOpen && s.phone.page == Auth;
    s.PhoneConfirm();
    s.Settle();
  }

  /** Sixty idle seconds run the countdown out; the status never becomes expired and the code can still be scanned. */
  method CountdownRunsOut(qrId: int) returns (s: Session)
    ensures s.isQRModalOpen && s.modal.Some? && s.modal.value.timeLeft == 0
    ensures s.qrInteraction == Idle
    ensures !ShowsRemaining(s.modal.value.timeLeft, s.qrInteraction)
    ensures ScanButtonEnabled(s.phone.page, s.isQRModalOpen, s.qrInteraction)
  {
    s := new Session();
    s.Initiate(qrId);
    var n := 0;
    while n < Lifetime
      invariant 0 <= n <= Lifetime
      invariant s.Valid() && s.qrInteraction == Idle && s.isQRModalOpen
      invariant s.modal.Some? && s.modal.value.timeLeft == Lifetime - n
      invariant s.phone.page == Scanner
      modifies s.ModalFrame()
    {
      s.Tick();
      n := n + 1;
    }
  }

  /** The answers the walkthrough gives: question 4 is optional and left out. */
  const Answered: Answers := map[1 := Text("商业保险"), 2 := Choices(["公司品牌"]), 3 := Text("5%以内")]

  /** Answering the three required questions and skipping the optional one opens the success modal. */
  method AnswerRequired(act: Activity) returns (f: QuestionnaireForm.Form)
    ensures f.Valid() && f.isSuccessModalOpen && f.activity == act
    ensures f.answers == Answered
  {
    QuestionFixture();
    f := new QuestionnaireForm.Form(act);
    f.HandleOptionClick("商业保险");
    assert f.answers == map[1 := Text("商业保险")];
    f.Next();
    assert f.currentIdx == 1 && QuestionnaireForm.CurrentChoices(f.answers, 2) == [];
    assert QuestionnaireForm.Toggle([], "公司品牌") == ["公司品牌"];
    f.HandleOptionClick("公司品牌");
    assert f.answers == map[1 := Text("商业保险"), 2 := Choices(["公司品牌"])];
    f.Next();
    assert f.currentIdx == 2;
    f.HandleOptionClick("5%以内");
    assert f.answers == Answered;
    f.Next();
    assert !f.isSuccessModalOpen && f.currentIdx == 3;
    f.Next();
  }

  /** The submitted record goes in front of the stored one and heads the newest-first report. */
  method FillAndSubmit(act: Activity, now: nat) returns (s: Session, r: QuestionnaireResult)
    ensures r.activityName == act.title && r.submitTime == 20240601 && r.answers == Answered
    ensures s.currentPage == DataReport && s.activityResults == [r] + InitialDataResults
    ensures ActivityData.FilteredResults(s.activityResults, "", ActivityData.Desc)[0] == r
  {
    var f := AnswerRequired(act);
    r := f.Finalize(now, 20240601);
    s := new Session();
    s.FinishQuestionnaire(r);
    ActivityData.PrependedNewestComesFirst(r, InitialDataResults);
  }

  /** The fixture stays in declaration order; picking `act4` drops it; previewing `act1` opens its preview. */
  method PickActivity() returns (s: Session, list: seq<Activity>)
    ensures list == MockActivities[..3]
    ensures s.currentPage == Preview && s.selectedActivity == Some(MockActivities[0])
  {
    ActivityFixture();
    var a := new Activity[4](i requires 0 <= i < 4 => MockActivities[i]);
    assert a[..] == MockActivities;
    Sel.FixtureIsAlreadySorted();
    var picker := new Sel.Selection(a);
    assert picker.activeList == MockActivities;
    var cb := picker.HandleAction(MockActivities[3], Sel.FillAction);
    assert cb == None;
    Sel.FixtureWithoutUnavailable();
    var cb2 := picker.HandleAction(MockActivities[0], Sel.PreviewAction);
    list := picker.activeList;
    s := new Session();
    s.OnSelectPreview(cb2.value.act);
  }

  /** One completed load after the first screen shows ten customers: the five, then all five again. */
  method HomePaging() returns (h: FaceToFaceHome.Home)
    ensures |h.list| == 10
    ensures h.list == MockRecommendations + MockRecommendations
    ensures !h.loading
  {
    h := new FaceToFaceHome.Home(MockRecommendations);
    h.LoadMore();
    h.LoadComplete();
  }
}
